=== FILE: README.md ===
# Rope wrapping around pegs: a Dafny model

This project models the core of a small game in which the player drags a rope
end around round pegs. Two components make up the core, and each exists in two
near-identical copies, one under `Assets/Script` and one under `Assets/Scenes`:

- **`RopeMeshGenerator`, the ribbon tessellator.** It is an immediate-mode
  builder. `clear`, `moveTo`, `lineTo` and `circle` append vertex pairs,
  texture coordinates and triangle indices to three growing buffers. `stroke`
  hands the buffers to the engine's mesh.
- **`ropeEnd`, the anchor-chain solver.** It keeps the ordered list of pegs the
  rope is wrapped around (`myColumn` anchors, with the rope start as the root
  at index 0). Each frame it does the following:
  - reads the ray-cast hits between the free end and the last anchor;
  - appends an anchor, or updates the last anchor's wrap angle, possibly
    dropping the anchor;
  - runs an anti-slip pass that may drop it again;
  - replays the chain as builder commands.

The model is functional:

- The builder's state is the datatype `RopeMesh.Builder`, and each builder call
  is a pure transition.
- The anchor list is a `seq<WrapSolver.Anchor>`.
- The render traversal returns the list of builder calls it makes, a
  `seq<RopeMesh.Command>`, which `RopeMesh.Replay` applies to the builder.
- The engine's cosine, sine, arc-cosine, square root and signed angle are
  fields of a `Geometry.Math` record and are not defined. `Geometry.Lawful`
  states the only laws used about the first four:
  - cos² + sin² = 1;
  - cosine is even and sine is odd;
  - cos(acos t) = t on [-1, 1];
  - the square root is a non-negative root.

  `Geometry.AngleLaws` states the only laws used about the signed angle
  (degrees, counter-clockwise positive) and the range of the arc-cosine:
  - turning a non-zero vector clockwise by an angle strictly between -π and π,
    the signed angle from the turned vector back to it is that angle;
  - the signed angle from the x axis is a non-zero vector's polar angle;
  - strictly inside (-1, 1), the arc-cosine lies strictly between 0 and π.
- Arithmetic is exact (`real`).
- C#'s float `%` is modelled as the truncated remainder `Geometry.Fmod`.

Files:

- `geometry.dfy`: points, rotation, normalization, `Fmod`.
- `rope_mesh.dfy`: the builder, covering both copies of `RopeMeshGenerator`.
- `wrap_solver.dfy`: the solver and render traversal, covering both copies of
  `ropeEnd`.

The two copies differ only in naming:

| Script copy | Scenes copy |
|---|---|
| `totalVertexCount` | `pointNum` |
| `uvOffset` | `offset` |
| `currentStartPos` | `startPos` |
| `CalculateTangentPoint` | `CalcQieDian` |
| `CalculateAngleBetweenPoints` | `radTwoPOnR` |
| `RotateVector2D` | `rotateVec2` |
| `GetPointAngleOnCircle` | `radOnePointOnCircle` |
| `CountColumnReferences` | `ifOnlyColumn` |

The Scenes copy also moves the pen update of `lineTo` into `UpdateLineState`.
Every branch, constant and edge case is the same in both copies, so one model
covers both. Each table row cites one copy and, where useful, names the
matching lines of the other.

## Model

| member | source | states |
|---|---|---|
| Geometry.FmodRange | Assets/Script/RopeMeshGenerator.cs:191 | The float remainder used to wrap the texture offset stays strictly below the divisor in magnitude and keeps the dividend's sign, so a non-negative offset wraps into [0, 5). |
| Geometry.FmodPeriodic | Assets/Script/RopeMeshGenerator.cs:115 | Adding one whole texture repeat to a non-negative dividend does not change the wrapped value. |
| Geometry.RotatePreservesLength | Assets/Script/ropeEnd.cs:465-472 | `Geometry.Rotate`, the clockwise rotation `RotateVector2D`, preserves length. Same as `rotateVec2` at Assets/Scenes/ropeEnd.cs:459-462. |
| Geometry.RotateUndo | Assets/Scenes/ropeEnd.cs:459-462 | Rotating by an angle and then by its negation gives the original vector back. |
| Geometry.RotateDotOriginal | Assets/Script/ropeEnd.cs:465-472 | The rotated vector's dot product with the original is the squared length times the cosine of the angle. |
| Geometry.RotateScale | Assets/Script/ropeEnd.cs:418 | Rotating a scaled vector equals scaling the rotated vector. The tangent computation relies on this. |
| Geometry.MagnitudeSquared | Assets/Script/ropeEnd.cs:403 | `magnitude` is non-negative and its square is the dot product of the vector with itself. |
| Geometry.NormalizeIsUnit | Assets/Script/RopeMeshGenerator.cs:154-155 | `normalized` of a vector longer than the engine's threshold has length 1 and points the same way: scaling it by the magnitude restores the vector. |
| Geometry.SqrtOfSquare | Assets/Script/RopeMeshGenerator.cs:76 | The length of a segment whose squared length is k·k is k. |
| Geometry.QuarterTurnLength | Assets/Script/RopeMeshGenerator.cs:151-152 | Both quarter-turned directions used for the ribbon edges have the segment's length. |
| RopeMesh.WrapIsFrac | Assets/Scenes/RopeMeshGenerator.cs:218 | The builder's `(x * 5 % 5) / 5` equals the fractional part of x, rounding toward zero. |
| RopeMesh.FracRange | Assets/Script/RopeMeshGenerator.cs:115 | A non-negative offset wraps into [0, 1). |
| RopeMesh.FracPeriodic | Assets/Scenes/RopeMeshGenerator.cs:156 | Wrapping is invariant under whole texture repeats. |
| RopeMesh.Clear | Assets/Script/RopeMeshGenerator.cs:131-140 | `clear` empties the three buffers and zeroes the counter and the offset. It lifts the pen at the origin and keeps the width. The result satisfies the bookkeeping invariant `Valid`. Same as Assets/Scenes/RopeMeshGenerator.cs:406-415. |
| RopeMesh.MoveTo | Assets/Script/RopeMeshGenerator.cs:122-126 | `moveTo` changes only the pen position and lifts the pen. Buffers, counter, offset and width are untouched. Same as Assets/Scenes/RopeMeshGenerator.cs:397-401. |
| RopeMesh.EmitPair | Assets/Script/RopeMeshGenerator.cs:162-175 | Each pair adds two vertices, two texture coordinates (u,0),(u,1) and 2 to the counter, so the three stay in lockstep and `Valid` is preserved. |
| RopeMesh.EmitQuad | Assets/Script/RopeMeshGenerator.cs:199-210 | The six indices are count-1, count-2, count-4, count-1, count-4, count-3, so each lies among the last four vertices. With at least four vertices `Valid` is kept, including whole quads of indices. Same as `AddArcTriangles` at 331-339. |
| RopeMesh.LineTo | Assets/Script/RopeMeshGenerator.cs:72-94 | `lineTo` always appends 4 vertices: start-right, start-left, end-right, end-left. It appends 4 texture coordinates (u,0),(u,1),(u',0),(u',1) with u' = u + length/5, and 6 indices over them. The offset becomes the fractional part of u', the pen is put down at the end point, and `Valid` is preserved. Same as Assets/Scenes/RopeMeshGenerator.cs:72-93. |
| RopeMesh.LineToIgnoresPenState | Assets/Script/RopeMeshGenerator.cs:165 | Because the guard is `if (true)`, a lifted pen and a lowered pen draw the same line. |
| RopeMesh.EdgeOffsetsShape | Assets/Script/RopeMeshGenerator.cs:148-157 | The left and right offsets are opposite, perpendicular to the segment and half the width long. |
| RopeMesh.LineToEdges | Assets/Scenes/RopeMeshGenerator.cs:121-156 | The start pair sits half the width either side of the pen, perpendicular to the segment. The end pair is the start pair translated by the segment. |
| RopeMesh.ArcLengthEqualAngles | Assets/Script/RopeMeshGenerator.cs:218-247 | With equal angles the clockwise length is 0 and the counter-clockwise length is a full circumference. |
| RopeMesh.ArcLengthMirror | Assets/Scenes/RopeMeshGenerator.cs:231-260 | The clockwise length from s to e equals the counter-clockwise length from e to s exactly when s ≠ e or the radius is 0. |
| RopeMesh.ArcLengthComplement | Assets/Script/RopeMeshGenerator.cs:218-247 | For any two angles, including equal ones and the full-turn pairs (0, 2π) and (2π, 0), the clockwise and counter-clockwise lengths add up to one circumference. |
| RopeMesh.ArcLengthBounded | Assets/Scenes/RopeMeshGenerator.cs:231-260 | For angles at most a turn apart and a non-negative radius, the arc length in either direction lies within [0, 2πr]. This covers the full-turn calls of `RenderColumnArc`. |
| RopeMesh.StepCountExact | Assets/Script/RopeMeshGenerator.cs:282 | The number of stepped pairs is exactly the number of naturals i with i < length - 1. |
| RopeMesh.StepCountMatchesLength | Assets/Script/RopeMeshGenerator.cs:347 | The stepped pairs advance the offset by StepCount(L)/5, which equals L/5 exactly when L is 0 and never exceeds it for L ≥ 0. So the corrective end pair is emitted exactly for a non-empty arc. |
| RopeMesh.EmitArcPair | Assets/Script/RopeMeshGenerator.cs:253-272 | An arc pair adds two vertices, the pair (u,0),(u,1) at the current offset and 2 to the counter, and preserves `Valid`. Same as `AddArcVertexPair` at 309-325. |
| RopeMesh.ArcPairOnRims | Assets/Script/RopeMeshGenerator.cs:309-325 | An arc pair lies at distances r - W/2 and r + W/2 from the centre. Clockwise arcs list r - W/2 first; counter-clockwise arcs list r + W/2 first. |
| RopeMesh.ArcSteps | Assets/Script/RopeMeshGenerator.cs:278-303 | The stepping loop emits exactly `StepCount(length)` pairs with 6 indices each and advances the offset by 1/5 per pair. The texture coordinates it appends are `SteppedUVs(u, k)`: pass n tags its pair with u + n/5. The pen and the width are unchanged. |
| RopeMesh.ArcStepsPrefix | Assets/Scenes/RopeMeshGenerator.cs:302-327 | The stepping loop only appends: every earlier vertex and index is kept in place. |
| RopeMesh.ArcStep | Assets/Scenes/RopeMeshGenerator.cs:306-326 | One loop pass appends the pair (u + 1/5, 0),(u + 1/5, 1) and the two triangles over the last four vertices, and preserves `Valid`. |
| RopeMesh.ArcStepsValid | Assets/Scenes/RopeMeshGenerator.cs:302-327 | The stepping loop preserves the bookkeeping invariant once a start pair exists. |
| RopeMesh.SteppedClimbing | Assets/Script/RopeMeshGenerator.cs:282-285 | Stepped texture coordinates lie above the offset the loop started from, at most the offset it ends with, and never decrease. |
| RopeMesh.EnsureArcEnd | Assets/Script/RopeMeshGenerator.cs:345-356 | The corrective pair at the end angle is emitted exactly when the stepped offset differs from `initial + length/5`, and the offset ends exactly there. Same as Assets/Scenes/RopeMeshGenerator.cs:381-392. |
| RopeMesh.ArcPairs | Assets/Script/RopeMeshGenerator.cs:101-113 | Before wrapping, an arc of length L leaves the offset at exactly `initial + L/5` whatever the stepping did. The pen state and the width are untouched. |
| RopeMesh.ArcEndFires | Assets/Script/RopeMeshGenerator.cs:347 | After the start pair and the stepping loop, the offset misses `initial + L/5` exactly when L ≠ 0, so that is when the corrective end pair is emitted. |
| RopeMesh.ArcPairsCounts | Assets/Script/RopeMeshGenerator.cs:101-113 | An arc of length L yields 1 + StepCount(L) pairs, plus one more exactly when L ≠ 0, with 6 indices per pair after the first. |
| RopeMesh.ArcPairsPrefix | Assets/Script/RopeMeshGenerator.cs:101-113 | An arc only appends: earlier vertices, texture coordinates and indices are kept in place. |
| RopeMesh.ArcPairsValid | Assets/Scenes/RopeMeshGenerator.cs:202-220 | An arc preserves the bookkeeping invariant `Valid`. |
| RopeMesh.ArcPairsUVs | Assets/Script/RopeMeshGenerator.cs:101-113 | The texture coordinates an arc appends are exactly `ArcUVs(initial, L)`: the start pair at the old offset, the stepped pairs, and the end pair at `initial + L/5` when L ≠ 0. |
| RopeMesh.ArcUVsClimb | Assets/Script/RopeMeshGenerator.cs:345-356 | For L ≥ 0 that sequence starts at the old offset, ends at `initial + L/5` and never decreases. |
| RopeMesh.ArcPairsTexCoords | Assets/Scenes/RopeMeshGenerator.cs:202-220 | For L ≥ 0 the u an arc emits start at the old offset, end at `old + L/5` and never decrease. |
| RopeMesh.Circle | Assets/Script/RopeMeshGenerator.cs:99-117 | After `circle` the offset is the fractional part of `initial + L/5`, whatever the stepping did. The pen is lifted and stays where it was, and the width is kept. Same as Assets/Scenes/RopeMeshGenerator.cs:202-220. |
| RopeMesh.CircleCounts | Assets/Script/RopeMeshGenerator.cs:99-117 | `circle` emits 1 + StepCount(L) pairs, plus one more exactly when L ≠ 0, with 6 indices per pair after the first. |
| RopeMesh.CirclePrefix | Assets/Script/RopeMeshGenerator.cs:99-117 | `circle` only appends to the three buffers. |
| RopeMesh.CircleValid | Assets/Scenes/RopeMeshGenerator.cs:202-220 | `circle` preserves `Valid`. |
| RopeMesh.CircleTexCoords | Assets/Script/RopeMeshGenerator.cs:99-117 | For an arc of non-negative length L, the u coordinates `circle` emits start at the old offset, end at `old + L/5` and never decrease. |
| RopeMesh.Stroke | Assets/Script/RopeMeshGenerator.cs:58-67 | `stroke` publishes the three buffers unchanged. A `Valid` builder gives a mesh with one texture coordinate per vertex, whole triangles, and in-range indices. |
| RopeMesh.Apply | Assets/Script/RopeMeshGenerator.cs:58-131 | Each builder call (`Width`, `moveTo`, `lineTo`, `circle`, `stroke`) keeps `Valid` and only appends vertices and indices. |
| RopeMesh.Replay | Assets/Script/ropeEnd.cs:307-323 | A sequence of builder calls keeps `Valid` and only appends vertices. |
| WrapSolver.NewAnchor | Assets/Script/ropeEnd.cs:18-25 | A fresh anchor has its latest tangent point equal to its first contact and a wrap angle of 0. Same as Assets/Scenes/ropeEnd.cs:11-17. |
| WrapSolver.StartChain | Assets/Script/ropeEnd.cs:53-57 | `Start` seeds exactly one root anchor at the rope start. Same as Assets/Scenes/ropeEnd.cs:33-38. |
| WrapSolver.RayTarget | Assets/Script/ropeEnd.cs:141-158 | The ray aims at the last tangent point when more than the root is present, and at the last anchor's start otherwise. |
| WrapSolver.TargetsAgree | Assets/Script/ropeEnd.cs:115 | The ray target and the free end's pull target agree exactly when more than the root is present or the root's tangent point is still its start. |
| WrapSolver.MotionTarget | Assets/Script/ropeEnd.cs:115 | The free end is pulled toward the last anchor's tangent point. With more than the root this is the ray target; with only the root it is the root's tangent point. |
| WrapSolver.AngleOfTurn | Assets/Script/ropeEnd.cs:447-452 | `WrapSolver.AngleBetween`, the signed angle of `CalculateAngleBetweenPoints`, measures a turn: when the second point is the first turned clockwise by `a` about the centre (less than half a turn), the angle from the second back to the first is `a`. Same as `radTwoPOnR` at Assets/Scenes/ropeEnd.cs:448-454. |
| WrapSolver.PointAngleDirection | Assets/Script/ropeEnd.cs:382-387 | `WrapSolver.PointAngle`, the angle of `GetPointAngleOnCircle`, is the point's polar angle: at that angle and at the point's distance from the centre lies the point itself. |
| WrapSolver.Tangent | Assets/Script/ropeEnd.cs:392-425 | For a free end neither on the centre nor inside the peg (`TangentDefined`), the tangent point lies on the circle of the given radius about the centre. Same as `CalcQieDian` at Assets/Scenes/ropeEnd.cs:408-437. |
| WrapSolver.TangentTouches | Assets/Scenes/ropeEnd.cs:408-437 | Wherever the tangent point is defined, the radius to it is perpendicular to the line from the outside point. |
| WrapSolver.TangentIsTurn | Assets/Script/ropeEnd.cs:398-421 | The tangent point is the point where the segment from the centre to the free end crosses the circle, turned about the centre by acos(r/\|E - C\|): negatively when the align point lies at a negative angle from the free end, positively otherwise. Same as Assets/Scenes/ropeEnd.cs:408-437. |
| WrapSolver.TangentSide | Assets/Script/ropeEnd.cs:409-418 | For a free end strictly outside a peg of non-zero radius, the turn from that crossing point to the tangent point is never zero. It is negative exactly when the align point's angle from the free end is negative, so the tangent point lies on the align point's side. Same as Assets/Scenes/ropeEnd.cs:423-430. |
| WrapSolver.RatioInUnit | Assets/Script/ropeEnd.cs:403 | The scale factor r/\|E - C\| lies in [-1, 1] when \|r\| ≤ \|E - C\|, so the arc-cosine is defined. |
| WrapSolver.UnwindsIsSignFlip | Assets/Script/ropeEnd.cs:235 | The test `rad * (rad + delta) < 0` holds exactly when the wrap angle changes sign. |
| WrapSolver.UpdateWrap | Assets/Script/ropeEnd.cs:219-246 | Only the last anchor is touched. It is popped exactly when the turn unwinds it, and a zero wrap angle is never popped. A kept anchor gets `rad + delta` with the same sign as before. Its new tangent point is the one `CalculateTangentPoint` gives for its peg, the free end and the old tangent point, and it lies on the peg. Same as Assets/Scenes/ropeEnd.cs:232-259. |
| WrapSolver.FreshAnchorKept | Assets/Scenes/ropeEnd.cs:248 | The first update after an anchor is made never removes it. |
| WrapSolver.WrapDeltaIsTurn | Assets/Script/ropeEnd.cs:231-245 | When the free end drags the tangent point clockwise about the peg by less than half a turn, the wrap angle changes by exactly that turn; a counter-clockwise drag shrinks it. Same as Assets/Scenes/ropeEnd.cs:244-258. |
| WrapSolver.UpdateWrapTouches | Assets/Script/ropeEnd.cs:223-229 | A kept anchor's new tangent point is where the straight rope from the free end touches the peg: the radius there is perpendicular to the rope. |
| WrapSolver.RemoveLast | Assets/Script/ropeEnd.cs:252-262 | Exactly the last anchor is removed, and everything before it is kept. |
| WrapSolver.AddAnchor | Assets/Script/ropeEnd.cs:205-213 | One fresh anchor on the hit object is appended: wrap 0, centre at the object, and first contact at the tangent point `CalculateTangentPoint` gives for the peg, the free end and the hit point, which lies on its circle. |
| WrapSolver.AddAnchorTouches | Assets/Script/ropeEnd.cs:205-213 | A new anchor starts where the straight rope from the free end touches the hit peg. |
| WrapSolver.ProcessHits | Assets/Script/ropeEnd.cs:170-197 | A second hit on a new object gives exactly `AddAnchor` of that hit. A second hit on the last anchor's object, or no second hit with more than the root, gives exactly `UpdateWrap`. With fewer than two hits and only the root, nothing changes. The chain grows by one exactly when the second hit is a new object, the length changes by at most one, and only the last anchor is touched. The chain empties only when the lone root's own object is hit. Same as Assets/Scenes/ropeEnd.cs:180-207. |
| WrapSolver.MidPointOnCircle | Assets/Script/ropeEnd.cs:275-278 | The middle of the wrapped arc lies as far from the centre as the first contact. |
| WrapSolver.Optimize | Assets/Script/ropeEnd.cs:268-299 | The anti-slip pass does nothing for one anchor or fewer, or for a wrap of at least 2π - 0.5. Otherwise it drops exactly the last anchor exactly when the mid-arc direction has a positive dot product with the direction back to the previous anchor. Same as Assets/Scenes/ropeEnd.cs:287-318. |
| WrapSolver.ChainStepBounds | Assets/Script/ropeEnd.cs:71-75 | `WrapSolver.ChainStep`, one `Update` frame's hit handling followed by the anti-slip pass, changes the chain length by -2 to +1 and leaves every anchor below the last two untouched. |
| WrapSolver.ChainStepKeepsRoot | Assets/Scenes/ropeEnd.cs:180-207 | The root survives a frame unless it is alone and the ray hits its own object. |
| WrapSolver.OnCirclesPrefix | Assets/Script/ropeEnd.cs:255 | Removing anchors from the end keeps the others on their pegs. |
| WrapSolver.ChainStepOnCircles | Assets/Script/ropeEnd.cs:205-246 | In a static scene, a frame keeps every non-root anchor's first contact and tangent point on its peg's circle. |
| WrapSolver.RunKeepsRoot | Assets/Scenes/ropeEnd.cs:188-205 | Over any run of frames in which the ray never reports the rope start's own object, the root stays unchanged and the chain never empties. |
| WrapSolver.RunOnCircles | Assets/Scenes/ropeEnd.cs:215-259 | Over any run of frames in a static scene, every anchor stays on its peg. |
| WrapSolver.SegmentCounts | Assets/Script/ropeEnd.cs:329-343 | `WrapSolver.SegmentCommands`, the calls of `RenderAnchorSegment`: one anchor segment draws one line, and one arc exactly when the anchor's wrap angle is non-zero. |
| WrapSolver.SegmentsCounts | Assets/Script/ropeEnd.cs:313-316 | The loop from anchor i down to 1 draws i lines and as many arcs as there are wrapped anchors among 1..i. |
| WrapSolver.FrameCounts | Assets/Script/ropeEnd.cs:309-322 | The fixed head of a rendering (width, pen to the free end) draws nothing, and its tail (line to the rope start, stroke) draws one line. |
| WrapSolver.RenderRope | Assets/Script/ropeEnd.cs:307-323 | A rendering starts by setting the width and moving the pen to the free end, and ends with a line to the rope start and `stroke`. |
| WrapSolver.SegmentTargets | Assets/Script/ropeEnd.cs:329-343 | `RenderAnchorSegment` draws exactly one line, to the tangent point pushed out by W/2 along the radius. Its pen moves are the full-turn move to the first contact (if any), then the move to the first contact pushed out by W/2. |
| WrapSolver.ArcTargets | Assets/Script/ropeEnd.cs:349-375 | `RenderColumnArc` draws no line, and moves the pen only to the anchor's first contact after a full turn. |
| WrapSolver.SegmentsLineTargets | Assets/Script/ropeEnd.cs:313-316 | The render loop from anchor i down to 1 draws its lines in the order of `LoopLines`. |
| WrapSolver.LoopLinesAt | Assets/Script/ropeEnd.cs:313-316 | The loop's k-th line goes to the offset tangent point of anchor i - k: one line per anchor, the anchors visited from the last down to 1. |
| WrapSolver.RenderLineTargets | Assets/Script/ropeEnd.cs:307-323 | The lines of a rendering are, in order, the offset tangent points of anchors Count-1 down to 1, then the rope start. |
| WrapSolver.SegmentsMoveTargets | Assets/Script/ropeEnd.cs:313-316 | The pen moves of the render loop are, anchor by anchor from i down to 1, each anchor's full-turn move (if any) followed by its offset first contact. |
| WrapSolver.RenderMoveTargets | Assets/Script/ropeEnd.cs:307-323 | The pen moves of a rendering are the move to the free end, then those of the render loop from anchor Count-1 down to 1. |
| WrapSolver.LoopMovesPartial | Assets/Script/ropeEnd.cs:313-316 | Without full turns, the loop's k-th pen move goes to the offset first contact of anchor i - k. |
| WrapSolver.SegmentMeetsArc | Assets/Script/ropeEnd.cs:331-338 | For a partial wrap whose tangent point is on its peg, the straight part ends exactly where the drawn arc starts: at the arc's start angle on the circle of radius peg radius + W/2. |
| WrapSolver.RenderLineCount | Assets/Scenes/ropeEnd.cs:329-345 | A rendering of a non-empty chain has exactly as many `lineTo` calls as anchors. |
| WrapSolver.RenderArcCount | Assets/Scenes/ropeEnd.cs:329-345 | A rendering of a non-empty chain has one `circle` per wrapped non-root anchor. The root is never drawn as an arc. |
| WrapSolver.ArcCommandLength | Assets/Script/ropeEnd.cs:349-375 | `WrapSolver.ArcCommands`, the calls of `RenderColumnArc`: an anchor draws an arc exactly when its wrap is non-zero. The arc's radius is peg radius + W/2, and its length is that radius times \|rad\| for a partial arc and times 2π for a full turn. Same as Assets/Scenes/ropeEnd.cs:373-399. |
| WrapSolver.ArcCommandAngles | Assets/Script/ropeEnd.cs:354-374 | A partial wrap is one `circle` from the tangent point's polar angle to that angle plus the wrap angle, clockwise exactly when the wrap is negative. A full turn is the circle from 0 to 2π counter-clockwise for a positive wrap, or from 2π to 0 clockwise otherwise, followed by `moveTo` the anchor's start. Same as Assets/Scenes/ropeEnd.cs:379-397. |
| WrapSolver.ArcStartsAtTangent | Assets/Script/ropeEnd.cs:369-373 | A partial arc starts on the ray from the peg's centre through the tangent point, where the straight rope leaves the peg. |
| WrapSolver.SegmentsIgnoreRoot | Assets/Script/ropeEnd.cs:313 | The render loop never reads the root anchor. |
| WrapSolver.RenderIgnoresRoot | Assets/Scenes/ropeEnd.cs:335-341 | Replacing the root anchor does not change the rendering. |
| WrapSolver.Tick | Assets/Script/ropeEnd.cs:59-79 | A frame's chain is hit handling followed by the anti-slip pass, and the published mesh is well formed. |
| WrapSolver.StraightLine | Assets/Script/RopeMeshGenerator.cs:162-193 | Given that the square root of 100 is 10, a line from (10,0) to the origin of width 1 has vertices (10,0.5),(10,-0.5),(0,0.5),(0,-0.5), texture coordinates (0,0),(0,1),(2,0),(2,1) and indices 3,2,0,3,0,1. |
| WrapSolver.StraightReplay | Assets/Script/ropeEnd.cs:307-323 | An unwrapped rope renders as width, pen to the free end, one line to the root, stroke. |
| WrapSolver.StraightRope | Assets/Script/ropeEnd.cs:59-79 | A whole frame for a straight rope keeps the chain and publishes that one quad. Its vertices come free end first, because `RenderRope` moves the pen to the free end and draws back to the rope start (Assets/Script/ropeEnd.cs:309-322). |

## Left out

- Unity plumbing is not modelled:
  - `MonoBehaviour` life-cycle hooks;
  - `MeshFilter`/`Mesh` creation;
  - the copy of the buffers into the engine mesh, beyond `stroke` publishing them unchanged.
- Mouse handlers and `Camera.ScreenToWorldPoint` are UI input.
- `UpdatePhysicsMovement` only writes the rigid body's velocity. The free end's
  position is an input of each frame. Only its target is modelled, as `MotionTarget`.
- `Physics2D.RaycastAll` is a foreign call. The hit list is an input, and
  objects are compared by identity (`ObjId`). The scene (each object's position
  and x scale) is a parameter.
- Debug output is not modelled: `LogDebugInfo`, `LogRaycastResults`,
  `mytoString` and the `Debug.Log`/`Debug.LogError` calls.
- `CountColumnReferences` / `ifOnlyColumn` are not modelled. The only branch
  that uses their result is empty.
- Floating point is not modelled. All arithmetic is exact, and one constant
  stands for both `Mathf.PI` and `Math.PI`.
  - With floats, rounding in the stepped offset can make the exact `!=` test
    of `EnsureArcEndPoint` add a corrective pair for an empty arc, or drop one
    for a non-empty arc. The model proves the exact-real behaviour: the pair is
    emitted iff the arc length is non-zero.
- The engine's `SignedAngle`, `Cos`, `Sin`, `Acos` and square root are not
  defined. Only the laws in `Geometry.Lawful` and `Geometry.AngleLaws` are
  assumed, and the normalization
  threshold is a named constant.
- WrapSolver.Tangent: requires `TangentDefined`: the free end is neither on the
  peg's centre nor inside the peg. The source divides by that distance and takes
  `Acos` of radius/distance, so outside these conditions it stores a NaN tangent
  point. Every frame the model covers meets them: `WrapDefined` and
  `TangentsDefined` require them of the pegs a frame consults. So `UpdateWrap`,
  `AddAnchor`, `ChainStepOnCircles` and `RunOnCircles` say nothing about frames
  in which the free end enters a peg.
- WrapSolver.Tick: requires a non-empty chain, as `ProcessHits` and the ray
  target do. The source indexes the last anchor and throws on an empty list.
  The chain can only become empty through the same-object branch, which lacks
  the `Count > 1` guard of the no-hit branch. `ProcessHits` and `RunKeepsRoot`
  state when that happens.
- The z coordinate is not modelled; points are two-dimensional.
- The Scenes copy's builder field is typed `meshScript`, and that class is not
  part of this model. It is bound to the same builder as the Script copy's
  `RopeMeshGenerator`.
- The public `Width` field is modelled as the builder's `width`, set by the
  `WidthCmd` command.

=== FILE: geometry.dfy ===
/** Plane geometry shared by the ribbon tessellator and the wrap solver.

    Points live in the plane (the engine's z coordinate is always 0 here).
    The engine's cosine, sine, arc-cosine, square root and signed angle are
    not defined here: they are fields of a `Math` record, and `Lawful` and
    `AngleLaws` list the few laws about them that the proofs rely on. */
module Geometry {

  datatype Vec2 = Vec2(x: real, y: real)

  const Origin: Vec2 := Vec2(0.0, 0.0)

  /** One real constant stands for both the single-precision and the
      double-precision pi constants of the engine. */
  const Pi: real := 3.141592653589793
  const TwoPi: real := 2.0 * Pi

  /** Vectors shorter than this normalize to the zero vector. */
  const NormalizeEpsilon: real := 0.00001

  function Add(a: Vec2, b: Vec2): Vec2 { Vec2(a.x + b.x, a.y + b.y) }

  function Sub(a: Vec2, b: Vec2): Vec2 { Vec2(a.x - b.x, a.y - b.y) }

  function Scale(a: Vec2, k: real): Vec2 { Vec2(a.x * k, a.y * k) }

  function Dot(a: Vec2, b: Vec2): real { a.x * b.x + a.y * b.y }

  /** Squared distance between two points. */
  function Dist2(a: Vec2, b: Vec2): real { Dot(Sub(a, b), Sub(a, b)) }

  function Abs(x: real): real { if x < 0.0 then -x else x }

  function Sq(x: real): real { x * x }

  /** The engine's transcendental functions, left uninterpreted.
      `signedAngle(from, to)` is in degrees, like the engine's. */
  datatype Math = Math(
    cos: real -> real,
    sin: real -> real,
    acos: real -> real,
    sqrt: real -> real,
    signedAngle: (Vec2, Vec2) -> real)

  /** The laws assumed of the engine's functions, in exact arithmetic. */
  ghost predicate Lawful(m: Math) {
    && (forall a :: m.cos(a) * m.cos(a) + m.sin(a) * m.sin(a) == 1.0)
    && (forall a, b :: a + b == 0.0 ==> m.cos(a) == m.cos(b))
    && (forall a, b :: a + b == 0.0 ==> m.sin(a) == -m.sin(b))
    && (forall t :: -1.0 <= t <= 1.0 ==> m.cos(m.acos(t)) == t)
    && (forall s :: 0.0 <= s ==> 0.0 <= m.sqrt(s) && m.sqrt(s) * m.sqrt(s) == s)
  }

  /** The laws assumed of the engine's signed angle and of the range of its
      arc-cosine, in exact arithmetic; kept apart from `Lawful` so that only
      the proofs about angles see them. */
  ghost predicate AngleLaws(m: Math) {
    // Turning `v` clockwise by less than half a turn: the signed angle from
    // the turned vector back to `v` is that turn, in degrees.
    && (forall v, a :: v != Origin && -Pi < a < Pi ==>
          m.signedAngle(Rotate(m, v, a), v) == a * 180.0 / Pi)
    // Strictly inside [-1, 1], the arc-cosine lies strictly between 0 and pi.
    && (forall x :: -1.0 < x < 1.0 ==> 0.0 < m.acos(x) < Pi)
    // The signed angle from the x axis is the polar angle of a vector.
    && (forall w :: w != Origin ==>
          Scale(Vec2(m.cos(SignedAngleRad(m, Vec2(1.0, 0.0), w)), m.sin(SignedAngleRad(m, Vec2(1.0, 0.0), w))),
                Magnitude(m, w)) == w)
  }

  /** The engine's `magnitude`. */
  function Magnitude(m: Math, v: Vec2): real { m.sqrt(Dot(v, v)) }

  /** The engine's `normalized`: a unit vector, or zero for a tiny vector. */
  function Normalize(m: Math, v: Vec2): Vec2 {
    var n := Magnitude(m, v);
    if n > NormalizeEpsilon then Vec2(v.x / n, v.y / n) else Origin
  }

  /** Clockwise rotation by `angle` radians. */
  function Rotate(m: Math, v: Vec2, angle: real): Vec2 {
    Vec2(v.x * m.cos(angle) + v.y * m.sin(angle),
         -v.x * m.sin(angle) + v.y * m.cos(angle))
  }

  /** The engine's signed angle from `from` to `to`, converted to radians. */
  function SignedAngleRad(m: Math, from: Vec2, to: Vec2): real {
    m.signedAngle(from, to) / 180.0 * Pi
  }

  /** Rounding toward zero, as a float-to-int cast does. */
  function Trunc(x: real): int {
    if x >= 0.0 then x.Floor else -((-x).Floor)
  }

  /** The fractional part of `w`, rounding toward zero. */
  function Frac(w: real): real { w - Trunc(w) as real }

  /** The remainder of the engine's `%` on floats: it keeps the sign of `x`. */
  function Fmod(x: real, y: real): real
    requires y != 0.0
  {
    x - y * (Trunc(x / y) as real)
  }

  /** `d * y` lies in `[0, y)` when `d` lies in `[0, 1)`. */
  lemma FractionOfPeriod(d: real, y: real)
    requires 0.0 <= d < 1.0 && y > 0.0
    ensures 0.0 <= d * y < y
  {
    assert (1.0 - d) * y > 0.0;
  }

  /** `Fmod` stays below the divisor in magnitude and keeps the dividend's sign. */
  lemma FmodRange(x: real, y: real)
    requires y > 0.0
    ensures 0.0 <= x ==> 0.0 <= Fmod(x, y) < y
    ensures x <= 0.0 ==> -y < Fmod(x, y) <= 0.0
  {
    FmodAsFraction(x, y);
    QuotientSign(x, y);
    FracSign(x / y);
    if 0.0 <= x {
      ScaledBelow(Frac(x / y), y, Fmod(x, y));
    }
    if x <= 0.0 {
      ScaledAbove(Frac(x / y), y, Fmod(x, y));
    }
  }

  /** The fractional part has the sign of its argument and is less than one in magnitude. */
  lemma FracSign(q: real)
    ensures 0.0 <= q ==> 0.0 <= Frac(q) < 1.0
    ensures q <= 0.0 ==> -1.0 < Frac(q) <= 0.0
  {
  }

  /** `y` times a fraction in `[0, 1)` lies in `[0, y)`. */
  lemma ScaledBelow(d: real, y: real, f: real)
    requires y > 0.0 && f == d * y && 0.0 <= d < 1.0
    ensures 0.0 <= f < y
  {
    FractionOfPeriod(d, y);
  }

  /** `y` times a fraction in `(-1, 0]` lies in `(-y, 0]`. */
  lemma ScaledAbove(d: real, y: real, f: real)
    requires y > 0.0 && f == d * y && -1.0 < d <= 0.0
    ensures -y < f <= 0.0
  {
    FractionOfPeriod(-d, y);
    assert (-d) * y == -f;
  }

  /** `Fmod(x, y)` is `y` times the part of `x / y` dropped by truncation. */
  lemma FmodAsFraction(x: real, y: real)
    requires y > 0.0
    ensures Fmod(x, y) == Frac(x / y) * y
  {
    var q := x / y;
    var t := Trunc(q) as real;
    assert q * y == x;
    assert Frac(q) == q - t;
    assert Frac(q) * y == q * y - t * y;
  }

  /** The quotient by a positive divisor has the dividend's sign. */
  lemma QuotientSign(x: real, y: real)
    requires y > 0.0
    ensures 0.0 <= x ==> 0.0 <= x / y
    ensures x == 0.0 ==> x / y == 0.0
    ensures x < 0.0 ==> x / y < 0.0
  {
    var q := x / y;
    assert q * y == x;
    if q < 0.0 { assert (-q) * y > 0.0; }
    if q > 0.0 { assert q * y > 0.0; }
  }

  /** Adding one period to a non-negative dividend does not change `Fmod`. */
  lemma FmodPeriodic(x: real, y: real)
    requires y > 0.0 && x >= 0.0
    ensures Fmod(x + y, y) == Fmod(x, y)
  {
    var q := x / y;
    assert (x + y) / y == x / y + y / y;
    assert y / y == 1.0;
    assert (q + 1.0).Floor == q.Floor + 1;
  }

  /** Rotation keeps the length of a vector. */
  lemma RotatePreservesLength(m: Math, v: Vec2, angle: real)
    requires Lawful(m)
    ensures Dot(Rotate(m, v, angle), Rotate(m, v, angle)) == Dot(v, v)
  {
    var c, s := m.cos(angle), m.sin(angle);
    assert c * c + s * s == 1.0;
    var r := Rotate(m, v, angle);
    calc {
      Dot(r, r);
      (v.x * c + v.y * s) * (v.x * c + v.y * s) + (-v.x * s + v.y * c) * (-v.x * s + v.y * c);
      v.x * v.x * (c * c + s * s) + v.y * v.y * (c * c + s * s);
      Dot(v, v);
    }
  }

  /** Rotating by `angle` and then by `-angle` gives the vector back. */
  lemma RotateUndo(m: Math, v: Vec2, angle: real)
    requires Lawful(m)
    ensures Rotate(m, Rotate(m, v, angle), -angle) == v
  {
    var c, s := m.cos(angle), m.sin(angle);
    assert c * c + s * s == 1.0;
    assert angle + -angle == 0.0;
    assert m.cos(-angle) == c && m.sin(-angle) == -s;
    UnitRotationUndo(v.x, v.y, c, s);
  }

  /** The algebra behind `RotateUndo`: turning back with the same cosine and
      the opposite sine recovers both coordinates. */
  lemma UnitRotationUndo(a: real, b: real, c: real, s: real)
    requires c * c + s * s == 1.0
    ensures (a * c + b * s) * c + (-a * s + b * c) * (-s) == a
    ensures -(a * c + b * s) * (-s) + (-a * s + b * c) * c == b
  {
    var cc, ss, cs := c * c, s * s, c * s;
    assert (a * c + b * s) * c == a * cc + b * cs;
    assert (-a * s + b * c) * (-s) == a * ss - b * cs;
    assert a * cc + a * ss == a * (cc + ss);
    assert (a * c + b * s) * s == a * cs + b * ss;
    assert (-a * s + b * c) * c == -a * cs + b * cc;
    assert b * ss + b * cc == b * (cc + ss);
  }

  /** A vector rotated by `angle` makes the angle `angle` with the original:
      their dot product is the squared length times the cosine. */
  lemma RotateDotOriginal(m: Math, v: Vec2, angle: real)
    ensures Dot(Rotate(m, v, angle), v) == Dot(v, v) * m.cos(angle)
  {
    var c, s := m.cos(angle), m.sin(angle);
    calc {
      Dot(Rotate(m, v, angle), v);
      (v.x * c + v.y * s) * v.x + (-v.x * s + v.y * c) * v.y;
      (v.x * v.x + v.y * v.y) * c;
    }
  }

  /** Rotation commutes with scaling. */
  lemma RotateScale(m: Math, v: Vec2, k: real, angle: real)
    ensures Rotate(m, Scale(v, k), angle) == Scale(Rotate(m, v, angle), k)
  {
    var c, s := m.cos(angle), m.sin(angle);
    assert (v.x * k) * c + (v.y * k) * s == (v.x * c + v.y * s) * k;
    assert -(v.x * k) * s + (v.y * k) * c == (-v.x * s + v.y * c) * k;
  }

  /** The magnitude is the length: its square is the dot product with itself. */
  lemma MagnitudeSquared(m: Math, v: Vec2)
    requires Lawful(m)
    ensures 0.0 <= Magnitude(m, v)
    ensures Magnitude(m, v) * Magnitude(m, v) == Dot(v, v)
  {
    assert 0.0 <= v.x * v.x && 0.0 <= v.y * v.y;
  }

  /** A vector longer than the threshold normalizes to a unit vector
      pointing the same way. */
  lemma NormalizeIsUnit(m: Math, v: Vec2)
    requires Lawful(m)
    requires Magnitude(m, v) > NormalizeEpsilon
    ensures Dot(Normalize(m, v), Normalize(m, v)) == 1.0
    ensures Scale(Normalize(m, v), Magnitude(m, v)) == v
  {
    var n := Magnitude(m, v);
    MagnitudeSquared(m, v);
    var u := Normalize(m, v);
    assert u == Vec2(v.x / n, v.y / n);
    assert n * n == v.x * v.x + v.y * v.y;
    assert n != 0.0;
    var inv := 1.0 / n;
    assert n * inv == 1.0;
    assert v.x / n == v.x * inv;
    assert v.y / n == v.y * inv;
    calc {
      Dot(u, u);
      (v.x * inv) * (v.x * inv) + (v.y * inv) * (v.y * inv);
      (v.x * v.x + v.y * v.y) * (inv * inv);
      (n * n) * (inv * inv);
      (n * inv) * (n * inv);
      1.0;
    }
    assert (v.x / n) * n == v.x;
    assert (v.y / n) * n == v.y;
  }

  /** The square root of a perfect square is its non-negative root. */
  lemma SqrtOfSquare(m: Math, k: real)
    requires Lawful(m) && 0.0 <= k
    ensures m.sqrt(k * k) == k
  {
    var r := m.sqrt(k * k);
    assert 0.0 <= r && r * r == k * k;
    if r > k {
      SquareStrictMono(k, r);
    } else if r < k {
      SquareStrictMono(r, k);
    }
  }

  /** A point at squared distance `k * k` from `c` (with `k` positive) is
      distinct from `c` and at distance `k` from it. */
  lemma DistanceOfRadius(m: Math, p: Vec2, c: Vec2, k: real)
    requires Lawful(m) && 0.0 < k && Dist2(p, c) == k * k
    ensures p != c && Magnitude(m, Sub(p, c)) == k
  {
    SquareStrictMono(0.0, k);
    PositiveDistance(p, c, k * k);
    SqrtOfSquare(m, k);
  }

  /** Points a positive squared distance apart are distinct. */
  lemma PositiveDistance(p: Vec2, c: Vec2, d: real)
    requires 0.0 < d && Dist2(p, c) == d
    ensures p != c
  {
    assert Dist2(c, c) == 0.0;
  }

  /** Squaring is strictly increasing on the non-negative reals. */
  lemma SquareStrictMono(x: real, y: real)
    requires 0.0 <= x < y
    ensures x * x < y * y
  {
    var low, mid, high := x * x, x * y, y * y;
    assert low <= mid;
    assert mid < high;
  }

  /** A vector turned a quarter turn has the same length. */
  lemma QuarterTurnLength(m: Math, v: Vec2)
    ensures Magnitude(m, Vec2(-v.y, v.x)) == Magnitude(m, v)
    ensures Magnitude(m, Vec2(v.y, -v.x)) == Magnitude(m, v)
  {
    assert Dot(Vec2(-v.y, v.x), Vec2(-v.y, v.x)) == Dot(v, v);
    assert Dot(Vec2(v.y, -v.x), Vec2(v.y, -v.x)) == Dot(v, v);
  }

  /** Scaling a vector by `k` scales its squared length by `k * k`. */
  /** Scaling by a non-zero factor is one-to-one. */
  lemma ScaleCancel(u: Vec2, w: Vec2, k: real)
    requires k != 0.0 && Scale(u, k) == Scale(w, k)
    ensures u == w
  {
    assert u.x == (u.x * k) / k == (w.x * k) / k == w.x;
    assert u.y == (u.y * k) / k == (w.y * k) / k == w.y;
  }

  /** Scaling a non-zero vector by a non-zero factor gives a non-zero vector. */
  lemma ScaleNonZero(u: Vec2, k: real)
    requires u != Origin && k != 0.0
    ensures Scale(u, k) != Origin
  {
    assert u.x == (u.x * k) / k;
    assert u.y == (u.y * k) / k;
  }

  /** Scaling distributes over a sum of factors. */
  lemma ScaleSum(u: Vec2, a: real, b: real)
    ensures Add(Scale(u, a), Scale(u, b)) == Scale(u, a + b)
  {
  }

  lemma DotScaled(v: Vec2, k: real)
    ensures Dot(Scale(v, k), Scale(v, k)) == k * k * Dot(v, v)
  {
    var a, b, kk := v.x * v.x, v.y * v.y, k * k;
    assert (v.x * k) * (v.x * k) == kk * a;
    assert (v.y * k) * (v.y * k) == kk * b;
  }

  /** Scaling one side of a dot product scales the product. */
  lemma DotScaleLeft(v: Vec2, w: Vec2, k: real)
    ensures Dot(Scale(v, k), w) == k * Dot(v, w)
  {
    assert (v.x * k) * w.x == k * (v.x * w.x);
    assert (v.y * k) * w.y == k * (v.y * w.y);
  }

  /** Dividing a vector by a non-zero length keeps it perpendicular to what it was perpendicular to. */
  lemma QuotientsPerpendicular(v: Vec2, w: Vec2, n: real)
    requires n != 0.0 && Dot(v, w) == 0.0
    ensures Dot(Vec2(v.x / n, v.y / n), w) == 0.0
  {
    var p, q := v.x / n, v.y / n;
    assert p * n == v.x && q * n == v.y;
    var t := p * w.x + q * w.y;
    assert t * n == (p * n) * w.x + (q * n) * w.y;
    assert t * n == 0.0;
  }
}

=== FILE: rope_mesh.dfy ===
/** The ribbon tessellator (`RopeMeshGenerator`, present in two near-identical
    copies). It is an immediate-mode builder: `moveTo`, `lineTo` and `circle`
    append vertex pairs, texture coordinates and triangle indices to three
    growing buffers, and `stroke` hands the buffers to the mesh consumer.
    Each command is modelled as a pure transition of `Builder`. */
module RopeMesh {
  import opened Geometry

  datatype TexCoord = TexCoord(u: real, v: real)

  /** The builder's whole state. `count` is the separately kept vertex
      counter (`totalVertexCount`, `pointNum` in the other copy), `uvOffset`
      the running texture offset (`offset`), `cursor` the pen position
      (`currentStartPos`, `startPos`) and `needStart` the pen-up flag. */
  datatype Builder = Builder(
    verts: seq<Vec2>,
    uvs: seq<TexCoord>,
    tris: seq<int>,
    count: int,
    uvOffset: real,
    cursor: Vec2,
    needStart: bool,
    width: real)

  /** What `stroke` publishes to the mesh consumer. */
  datatype Mesh = Mesh(vertices: seq<Vec2>, triangles: seq<int>, uv: seq<TexCoord>)

  /** One arc request of `circle`. */
  datatype Arc = Arc(center: Vec2, radius: real, startAngle: real, endAngle: real, clockwise: bool)

  /** World length covered by one repeat of the texture. */
  const RepeatLength: real := 5.0

  /** Texture coordinates come in pairs `(u, 0), (u, 1)` sharing `u`. */
  predicate PairedTexCoords(uvs: seq<TexCoord>) {
    && |uvs| % 2 == 0
    && (forall j :: 0 <= j < |uvs| ==> uvs[j].v == (if j % 2 == 0 then 0.0 else 1.0))
    && (forall j :: 0 <= j < |uvs| && j % 2 == 1 ==> uvs[j].u == uvs[j - 1].u)
  }

  /** The bookkeeping every command keeps: vertex list, texture list and
      counter in lockstep, whole quads of indices, no index past the last
      emitted vertex. */
  predicate Valid(b: Builder) {
    && b.count == |b.verts| == |b.uvs|
    && PairedTexCoords(b.uvs)
    && |b.tris| % 6 == 0
    && (forall i :: 0 <= i < |b.tris| ==> 0 <= b.tris[i] < |b.verts|)
  }

  /** A mesh the consumer can draw: one texture coordinate per vertex,
      whole triangles, and every index naming a vertex of the batch. */
  predicate WellFormedMesh(mesh: Mesh) {
    && |mesh.uv| == |mesh.vertices|
    && |mesh.triangles| % 3 == 0
    && (forall i :: 0 <= i < |mesh.triangles| ==> 0 <= mesh.triangles[i] < |mesh.vertices|)
  }

  /** A non-negative texture offset wraps into `[0, 1)`. */
  lemma FracRange(w: real)
    requires 0.0 <= w
    ensures 0.0 <= Frac(w) < 1.0
  {
  }

  /** Wrapping one full texture repeat further lands on the same offset. */
  lemma FracPeriodic(w: real)
    requires 0.0 <= w
    ensures Frac(w + 1.0) == Frac(w)
  {
    assert (w + 1.0).Floor == w.Floor + 1;
  }

  /** The builder's `(x * 5 % 5) / 5` is the fractional part of `x`. */
  lemma WrapIsFrac(w: real)
    ensures Fmod(w * RepeatLength, RepeatLength) / RepeatLength == Frac(w)
  {
    assert w * RepeatLength / RepeatLength == w;
  }

  /** `clear`: empty buffers, counter and offset zero, pen up at the origin. */
  function Clear(b: Builder): (r: Builder)
    ensures Valid(r)
    ensures r.verts == [] && r.uvs == [] && r.tris == []
    ensures r.count == 0 && r.uvOffset == 0.0
    ensures r.cursor == Origin && r.needStart && r.width == b.width
  {
    Builder([], [], [], 0, 0.0, Origin, true, b.width)
  }

  /** `moveTo`: moves the pen and lifts it; nothing else changes. */
  function MoveTo(b: Builder, p: Vec2): (r: Builder)
    ensures r.verts == b.verts && r.uvs == b.uvs && r.tris == b.tris
    ensures r.count == b.count && r.uvOffset == b.uvOffset && r.width == b.width
    ensures r.cursor == p && r.needStart
  {
    b.(cursor := p, needStart := true)
  }

  /** The two texture coordinates of a vertex pair at offset `u`. */
  function Pair(u: real): seq<TexCoord> {
    [TexCoord(u, 0.0), TexCoord(u, 1.0)]
  }

  /** Appends one vertex pair with texture coordinates `(u, 0), (u, 1)`. */
  function EmitPair(b: Builder, first: Vec2, second: Vec2, u: real): (r: Builder)
    ensures r.verts == b.verts + [first, second]
    ensures r.uvs == b.uvs + [TexCoord(u, 0.0), TexCoord(u, 1.0)]
    ensures r.count == b.count + 2
    ensures r.tris == b.tris && r.uvOffset == b.uvOffset
    ensures r.cursor == b.cursor && r.needStart == b.needStart && r.width == b.width
    ensures Valid(b) ==> Valid(r)
  {
    b.(verts := b.verts + [first, second],
       uvs := b.uvs + [TexCoord(u, 0.0), TexCoord(u, 1.0)],
       count := b.count + 2)
  }

  /** The two triangles over the last four vertices when `c` have been emitted. */
  function QuadIndices(c: int): seq<int> {
    [c - 1, c - 2, c - 4, c - 1, c - 4, c - 3]
  }

  /** `AddLineTriangles` / `AddArcTriangles`: two triangles over the four most
      recently emitted vertices. */
  function EmitQuad(b: Builder): (r: Builder)
    ensures r.tris == b.tris + QuadIndices(b.count)
    ensures forall k :: |b.tris| <= k < |r.tris| ==> b.count - 4 <= r.tris[k] < b.count
    ensures r.verts == b.verts && r.uvs == b.uvs && r.count == b.count
    ensures r.uvOffset == b.uvOffset && r.cursor == b.cursor
    ensures r.needStart == b.needStart && r.width == b.width
    ensures Valid(b) && b.count >= 4 ==> Valid(r)
  {
    b.(tris := b.tris + QuadIndices(b.count))
  }

  /** The two ribbon-edge offsets of a segment with direction `d`: the
      direction turned a quarter turn left and right, scaled to half the width. */
  function EdgeOffsets(m: Math, d: Vec2, width: real): (lr: (Vec2, Vec2)) {
    (Scale(Normalize(m, Vec2(-d.y, d.x)), width / 2.0),
     Scale(Normalize(m, Vec2(d.y, -d.x)), width / 2.0))
  }

  /** `lineTo`: always a start pair at the pen and an end pair at `endPos`
      (the pen flag is ignored), two triangles, the texture offset advanced
      by the segment length and wrapped, and the pen put down at `endPos`. */
  function LineTo(m: Math, b: Builder, endPos: Vec2): (r: Builder)
    ensures |r.verts| == |b.verts| + 4 && |r.uvs| == |b.uvs| + 4 && r.count == b.count + 4
    ensures r.verts[..|b.verts|] == b.verts && r.uvs[..|b.uvs|] == b.uvs
    ensures r.tris == b.tris + QuadIndices(b.count + 4)
    ensures var (left, right) := EdgeOffsets(m, Sub(endPos, b.cursor), b.width);
            r.verts[|b.verts|..] == [Add(b.cursor, right), Add(b.cursor, left), Add(endPos, right), Add(endPos, left)]
    ensures var u := b.uvOffset;
            var u' := u + Magnitude(m, Sub(endPos, b.cursor)) / RepeatLength;
            r.uvs[|b.uvs|..] == [TexCoord(u, 0.0), TexCoord(u, 1.0), TexCoord(u', 0.0), TexCoord(u', 1.0)]
            && r.uvOffset == Frac(u')
    ensures r.cursor == endPos && !r.needStart && r.width == b.width
    ensures Valid(b) ==> Valid(r)
  {
    var d := Sub(endPos, b.cursor);
    var len := Magnitude(m, d);
    var (left, right) := EdgeOffsets(m, d, b.width);
    var withStart := EmitPair(b, Add(b.cursor, right), Add(b.cursor, left), b.uvOffset);
    var withEnd := EmitPair(withStart, Add(endPos, right), Add(endPos, left), b.uvOffset + len / 5.0);
    WrapIsFrac(b.uvOffset + len / 5.0);
    assert (b.uvOffset + len / 5.0) * RepeatLength == b.uvOffset * 5.0 + len;
    var wrapped := withEnd.(uvOffset := Fmod(b.uvOffset * 5.0 + len, 5.0) / 5.0);
    EmitQuad(wrapped).(cursor := endPos, needStart := false)
  }

  /** `lineTo` ignores the pen flag: a lifted and a lowered pen draw the same. */
  lemma LineToIgnoresPenState(m: Math, b: Builder, endPos: Vec2)
    ensures LineTo(m, b.(needStart := true), endPos) == LineTo(m, b.(needStart := false), endPos)
  {
  }

  /** The two edge offsets are opposite, perpendicular to the segment and
      half the width long, when the segment is not degenerate. */
  lemma EdgeOffsetsShape(m: Math, d: Vec2, width: real)
    requires Lawful(m)
    requires Magnitude(m, d) > NormalizeEpsilon
    ensures var (left, right) := EdgeOffsets(m, d, width);
            && Dot(right, d) == 0.0
            && Dot(right, right) == Sq(width / 2.0)
            && Add(left, right) == Origin
  {
    EdgeOffsetsOpposite(m, d, width);
    EdgeOffsetPerpendicular(m, d, width);
    EdgeOffsetHalfWidth(m, d, width);
  }

  /** The left offset is the right one reversed. */
  lemma EdgeOffsetsOpposite(m: Math, d: Vec2, width: real)
    requires Magnitude(m, d) > NormalizeEpsilon
    ensures Add(EdgeOffsets(m, d, width).0, EdgeOffsets(m, d, width).1) == Origin
  {
    QuarterTurnLength(m, d);
    var len := Magnitude(m, d);
    assert Normalize(m, Vec2(-d.y, d.x)) == Vec2(-d.y / len, d.x / len);
    assert Normalize(m, Vec2(d.y, -d.x)) == Vec2(d.y / len, -d.x / len);
  }

  /** The right offset is perpendicular to the segment. */
  lemma EdgeOffsetPerpendicular(m: Math, d: Vec2, width: real)
    requires Magnitude(m, d) > NormalizeEpsilon
    ensures Dot(EdgeOffsets(m, d, width).1, d) == 0.0
  {
    var rightDir := Vec2(d.y, -d.x);
    QuarterTurnLength(m, d);
    var len := Magnitude(m, d);
    assert Dot(rightDir, d) == 0.0;
    QuotientsPerpendicular(rightDir, d, len);
    var unit := Normalize(m, rightDir);
    assert unit == Vec2(rightDir.x / len, rightDir.y / len);
    DotScaleLeft(unit, d, width / 2.0);
  }

  /** The right offset is half the width long. */
  lemma EdgeOffsetHalfWidth(m: Math, d: Vec2, width: real)
    requires Lawful(m)
    requires Magnitude(m, d) > NormalizeEpsilon
    ensures Dot(EdgeOffsets(m, d, width).1, EdgeOffsets(m, d, width).1) == Sq(width / 2.0)
  {
    var rightDir := Vec2(d.y, -d.x);
    QuarterTurnLength(m, d);
    NormalizeIsUnit(m, rightDir);
    var unit := Normalize(m, rightDir);
    DotScaled(unit, width / 2.0);
  }

  /** The ribbon edges of a line: the start pair sits half the width either
      side of the pen, perpendicular to the segment, and the end pair is the
      start pair moved along the segment. */
  lemma LineToEdges(m: Math, b: Builder, endPos: Vec2)
    requires Lawful(m)
    requires Magnitude(m, Sub(endPos, b.cursor)) > NormalizeEpsilon
    ensures var r := LineTo(m, b, endPos);
            var d := Sub(endPos, b.cursor);
            var n := |b.verts|;
            && Dot(Sub(r.verts[n], b.cursor), d) == 0.0
            && Dist2(r.verts[n], b.cursor) == Sq(b.width / 2.0)
            && Add(Sub(r.verts[n], b.cursor), Sub(r.verts[n + 1], b.cursor)) == Origin
            && Sub(r.verts[n + 2], r.verts[n]) == d
            && Sub(r.verts[n + 3], r.verts[n + 1]) == d
  {
    var r := LineTo(m, b, endPos);
    var d := Sub(endPos, b.cursor);
    var n := |b.verts|;
    var (left, right) := EdgeOffsets(m, d, b.width);
    EdgeOffsetsShape(m, d, b.width);
    assert r.verts[n] == r.verts[n..][0] && r.verts[n + 1] == r.verts[n..][1];
    assert r.verts[n + 2] == r.verts[n..][2] && r.verts[n + 3] == r.verts[n..][3];
    assert Sub(r.verts[n], b.cursor) == right;
    assert Sub(r.verts[n + 1], b.cursor) == left;
  }

  /** `CalculateArcLength`: the arc's length, going clockwise or
      counter-clockwise from `startAngle` to `endAngle`. */
  function ArcLength(startAngle: real, endAngle: real, radius: real, clockwise: bool): real {
    if clockwise then
      if endAngle > startAngle then (startAngle + 2.0 * Pi - endAngle) * radius
      else (startAngle - endAngle) * radius
    else
      if endAngle > startAngle then (endAngle - startAngle) * radius
      else (endAngle + 2.0 * Pi - startAngle) * radius
  }

  /** Equal angles make no arc clockwise but a whole circle counter-clockwise. */
  lemma ArcLengthEqualAngles(angle: real, radius: real)
    ensures ArcLength(angle, angle, radius, true) == 0.0
    ensures ArcLength(angle, angle, radius, false) == TwoPi * radius
  {
  }

  /** A clockwise arc is the counter-clockwise arc with its ends swapped,
      exactly when the ends differ (or the radius is zero). */
  lemma ArcLengthMirror(startAngle: real, endAngle: real, radius: real)
    ensures ArcLength(startAngle, endAngle, radius, true) == ArcLength(endAngle, startAngle, radius, false)
            <==> (startAngle != endAngle || radius == 0.0)
  {
    if startAngle == endAngle && radius != 0.0 {
      assert TwoPi * radius != 0.0;
    }
  }

  /** Going both ways between any two angles covers the whole circle. */
  lemma ArcLengthComplement(startAngle: real, endAngle: real, radius: real)
    ensures ArcLength(startAngle, endAngle, radius, true) + ArcLength(startAngle, endAngle, radius, false)
            == TwoPi * radius
  {
  }

  /** For angles at most a turn apart, neither direction is negative or
      longer than the circumference. */
  lemma ArcLengthBounded(startAngle: real, endAngle: real, radius: real, clockwise: bool)
    requires 0.0 <= radius
    requires Abs(startAngle - endAngle) <= TwoPi
    ensures 0.0 <= ArcLength(startAngle, endAngle, radius, clockwise) <= TwoPi * radius
  {
    var a := ArcLength(startAngle, endAngle, 1.0, clockwise);
    assert 0.0 <= a <= TwoPi;
    ArcLengthScales(startAngle, endAngle, radius, clockwise);
    SignOfProduct(a, radius);
    SignOfProduct(TwoPi - a, radius);
  }

  /** The arc length is the radius times the length on the unit circle. */
  lemma ArcLengthScales(startAngle: real, endAngle: real, radius: real, clockwise: bool)
    ensures ArcLength(startAngle, endAngle, radius, clockwise) == ArcLength(startAngle, endAngle, 1.0, clockwise) * radius
  {
  }

  /** A product of non-negative numbers is non-negative. */
  lemma SignOfProduct(a: real, b: real)
    requires 0.0 <= a && 0.0 <= b
    ensures 0.0 <= a * b
  {
  }

  /** The number of stepped vertex pairs of an arc of length `len`: the loop
      `for (i = 0; i < len - 1; i++)` runs `ceil(len - 1)` times, or never. */
  function StepCount(len: real): nat {
    if len <= 1.0 then 0
    else
      var f := (1.0 - len).Floor;
      assert f < 0;
      -f
  }

  /** `StepCount` is exactly the number of naturals below `len - 1`. */
  lemma StepCountExact(len: real, k: nat)
    ensures k < StepCount(len) <==> (k as real) < len - 1.0
  {
  }

  /** The stepped pairs alone reach the arc's length only for an empty arc,
      so the corrective end pair is emitted exactly when `len != 0`. */
  lemma StepCountMatchesLength(len: real)
    ensures (StepCount(len) as real == len) <==> len == 0.0
    ensures 0.0 <= len ==> StepCount(len) as real <= len
  {
  }

  /** `AddArcStartPoint` / `AddArcVertexPair`: a pair at `angle` on the arc,
      the radius `r - W/2` first when clockwise and `r + W/2` first otherwise,
      both tagged with the current texture offset. */
  function EmitArcPair(m: Math, b: Builder, arc: Arc, angle: real): (r: Builder)
    ensures |r.verts| == |b.verts| + 2 && r.verts[..|b.verts|] == b.verts
    ensures r.uvs == b.uvs + [TexCoord(b.uvOffset, 0.0), TexCoord(b.uvOffset, 1.0)]
    ensures r.count == b.count + 2 && r.tris == b.tris && r.uvOffset == b.uvOffset
    ensures r.cursor == b.cursor && r.needStart == b.needStart && r.width == b.width
    ensures Valid(b) ==> Valid(r)
  {
    var onCircle := Vec2(m.cos(angle), m.sin(angle));
    var inner := Add(Scale(onCircle, arc.radius - b.width / 2.0), arc.center);
    var outer := Add(Scale(onCircle, arc.radius + b.width / 2.0), arc.center);
    if arc.clockwise then EmitPair(b, inner, outer, b.uvOffset)
    else EmitPair(b, outer, inner, b.uvOffset)
  }

  /** A point `k` along the unit direction at `angle` is `k` from the centre. */
  lemma PolarDistance(m: Math, angle: real, k: real, center: Vec2)
    requires Lawful(m)
    ensures Dist2(Add(Scale(Vec2(m.cos(angle), m.sin(angle)), k), center), center) == Sq(k)
  {
    var c, s := m.cos(angle), m.sin(angle);
    assert c * c + s * s == 1.0;
    var v := Scale(Vec2(c, s), k);
    assert Sub(Add(v, center), center) == v;
    assert Dot(v, v) == k * k * (c * c + s * s);
  }

  /** An arc pair lies on the two ribbon rims, `r - W/2` and `r + W/2` from
      the centre; clockwise arcs list the inner rim first. */
  lemma ArcPairOnRims(m: Math, b: Builder, arc: Arc, angle: real)
    requires Lawful(m)
    ensures var r := EmitArcPair(m, b, arc, angle);
            var inner := arc.radius - b.width / 2.0;
            var outer := arc.radius + b.width / 2.0;
            && Dist2(r.verts[|b.verts|], arc.center) == Sq(if arc.clockwise then inner else outer)
            && Dist2(r.verts[|b.verts| + 1], arc.center) == Sq(if arc.clockwise then outer else inner)
  {
    PolarDistance(m, angle, arc.radius - b.width / 2.0, arc.center);
    PolarDistance(m, angle, arc.radius + b.width / 2.0, arc.center);
  }

  /** `GenerateArcSegments` from loop index `i` on: each pass advances the
      offset by a fifth, turns by `|start - end| / len`, and emits a pair and
      two triangles. */
  function ArcSteps(m: Math, b: Builder, arc: Arc, len: real, i: nat, angle: real): (r: Builder)
    requires i <= StepCount(len)
    decreases StepCount(len) - i
    ensures |r.verts| == |b.verts| + 2 * (StepCount(len) - i)
    ensures r.uvs == b.uvs + SteppedUVs(b.uvOffset, StepCount(len) - i)
    ensures r.count == b.count + 2 * (StepCount(len) - i)
    ensures |r.tris| == |b.tris| + 6 * (StepCount(len) - i)
    ensures r.uvOffset == b.uvOffset + (StepCount(len) - i) as real / RepeatLength
    ensures r.cursor == b.cursor && r.needStart == b.needStart && r.width == b.width
  {
    StepCountExact(len, i);
    if (i as real) < len - 1.0 then
      var next := ArcStep(m, b, arc, len, angle);
      var r := ArcSteps(m, next, arc, len, i + 1, ArcStepAngle(arc, len, angle));
      SteppedUVsUnfold(b.uvs, b.uvOffset, StepCount(len) - i);
      r
    else
      b
  }

  /** The stepping loop only appends vertices and indices. */
  lemma {:induction false} ArcStepsPrefix(m: Math, b: Builder, arc: Arc, len: real, i: nat, angle: real)
    requires i <= StepCount(len)
    decreases StepCount(len) - i
    ensures var r := ArcSteps(m, b, arc, len, i, angle);
            && r.verts[..|b.verts|] == b.verts && r.tris[..|b.tris|] == b.tris
  {
    StepCountExact(len, i);
    if (i as real) < len - 1.0 {
      var next := ArcStep(m, b, arc, len, angle);
      var r := ArcSteps(m, next, arc, len, i + 1, ArcStepAngle(arc, len, angle));
      ArcStepsPrefix(m, next, arc, len, i + 1, ArcStepAngle(arc, len, angle));
      PrefixChain(b.verts, next.verts, r.verts);
      PrefixChain(b.tris, next.tris, r.tris);
    }
  }

  /** Being a prefix is transitive. */
  lemma PrefixChain<T>(a: seq<T>, b: seq<T>, c: seq<T>)
    requires |a| <= |b| && b[..|a|] == a
    requires |b| <= |c| && c[..|b|] == b
    ensures |a| <= |c| && c[..|a|] == a
  {
    assert c[..|a|] == c[..|b|][..|a|];
  }

  /** The texture pairs `k` passes of the stepping loop emit from offset `u`:
      pass `n` tags its pair with `u + n / 5`. */
  function SteppedUVs(u: real, k: nat): (s: seq<TexCoord>)
    decreases k
    ensures |s| == 2 * k
  {
    if k == 0 then []
    else
      var u1 := u + 1.0 / RepeatLength;
      Pair(u1) + SteppedUVs(u1, k - 1)
  }

  /** Appending one stepped pair and then the rest is appending them all. */
  lemma SteppedUVsUnfold(before: seq<TexCoord>, u: real, k: nat)
    requires k > 0
    ensures var u1 := u + 1.0 / RepeatLength;
            (before + [TexCoord(u1, 0.0), TexCoord(u1, 1.0)]) + SteppedUVs(u1, k - 1) == before + SteppedUVs(u, k)
  {
  }

  /** The angle of the next stepped pair. */
  function ArcStepAngle(arc: Arc, len: real, angle: real): real
    requires len != 0.0
  {
    var turn := Abs(arc.startAngle - arc.endAngle) / len;
    if arc.clockwise then angle - turn else angle + turn
  }

  /** One pass of the stepping loop. */
  function ArcStep(m: Math, b: Builder, arc: Arc, len: real, angle: real): (r: Builder)
    requires len != 0.0
    ensures |r.verts| == |b.verts| + 2 && r.verts[..|b.verts|] == b.verts
    ensures r.uvs == b.uvs + [TexCoord(b.uvOffset + 1.0 / RepeatLength, 0.0), TexCoord(b.uvOffset + 1.0 / RepeatLength, 1.0)]
    ensures r.count == b.count + 2
    ensures r.tris == b.tris + QuadIndices(b.count + 2)
    ensures r.uvOffset == b.uvOffset + 1.0 / RepeatLength
    ensures r.cursor == b.cursor && r.needStart == b.needStart && r.width == b.width
    ensures Valid(b) && b.count >= 2 ==> Valid(r)
  {
    var stepped := b.(uvOffset := b.uvOffset + 1.0 / 5.0);
    EmitQuad(EmitArcPair(m, stepped, arc, ArcStepAngle(arc, len, angle)))
  }

  /** The stepping loop keeps the builder's bookkeeping. */
  lemma {:induction false} ArcStepsValid(m: Math, b: Builder, arc: Arc, len: real, i: nat, angle: real)
    requires i <= StepCount(len)
    requires Valid(b) && b.count >= 2
    decreases StepCount(len) - i
    ensures Valid(ArcSteps(m, b, arc, len, i, angle))
  {
    StepCountExact(len, i);
    if (i as real) < len - 1.0 {
      var next := ArcStep(m, b, arc, len, angle);
      assert Valid(next);
      ArcStepsValid(m, next, arc, len, i + 1, ArcStepAngle(arc, len, angle));
    }
  }

  /** From index `from` on, the `u` coordinates never decrease and lie in `(lo, hi]`. */
  predicate Climbing(uvs: seq<TexCoord>, from: int, lo: real, hi: real) {
    && (forall j :: 0 <= from <= j < |uvs| ==> lo < uvs[j].u <= hi)
    && (forall j, k :: 0 <= from <= j <= k < |uvs| ==> uvs[j].u <= uvs[k].u)
  }

  /** The stepped texture coordinates climb: each lies above the offset
      the loop started from and at most the offset it ends with, and a
      later one is never below an earlier one. */
  lemma {:induction false} SteppedClimbing(u: real, k: nat)
    decreases k
    ensures Climbing(SteppedUVs(u, k), 0, u, u + k as real / RepeatLength)
  {
    if k > 0 {
      var u1 := u + 1.0 / RepeatLength;
      var hi := u + k as real / RepeatLength;
      assert u1 + (k - 1) as real / RepeatLength == hi;
      SteppedClimbing(u1, k - 1);
      ClimbingPrepend(SteppedUVs(u1, k - 1), u1, u, hi);
    }
  }

  /** A pair at `u1` in front of a run climbing from `u1` climbs from any lower `lo`. */
  lemma ClimbingPrepend(rest: seq<TexCoord>, u1: real, lo: real, hi: real)
    requires lo < u1 <= hi
    requires Climbing(rest, 0, u1, hi)
    ensures Climbing([TexCoord(u1, 0.0), TexCoord(u1, 1.0)] + rest, 0, lo, hi)
  {
    var s := [TexCoord(u1, 0.0), TexCoord(u1, 1.0)] + rest;
    assert forall j :: 2 <= j < |s| ==> s[j] == rest[j - 2];
  }

  /** `EnsureArcEndPoint`: when the stepped offset misses `initial + len / 5`,
      sets it exactly and emits a final pair at the end angle. */
  function EnsureArcEnd(m: Math, b: Builder, arc: Arc, len: real, initial: real): (r: Builder)
    ensures var fires := b.uvOffset != initial + len / RepeatLength;
            && |r.verts| == |b.verts| + (if fires then 2 else 0)
            && r.uvs == b.uvs + (if fires then Pair(initial + len / RepeatLength) else [])
            && r.count == b.count + (if fires then 2 else 0)
            && |r.tris| == |b.tris| + (if fires then 6 else 0)
    ensures r.verts[..|b.verts|] == b.verts && r.tris[..|b.tris|] == b.tris
    ensures r.uvOffset == initial + len / RepeatLength
    ensures r.cursor == b.cursor && r.needStart == b.needStart && r.width == b.width
    ensures Valid(b) && b.count >= 2 ==> Valid(r)
  {
    var target := initial + len / 5.0;
    if b.uvOffset != target then
      EmitQuad(EmitArcPair(m, b.(uvOffset := target), arc, arc.endAngle))
    else
      b
  }

  /** The vertex pairs of one arc of length `len`: the start pair, the
      stepped pairs and, when needed, the corrective end pair, with the
      offset advanced by exactly `len / 5` and not yet wrapped. */
  function ArcPairs(m: Math, b: Builder, arc: Arc, len: real): (r: Builder)
    ensures r.uvOffset == b.uvOffset + len / RepeatLength
    ensures r.cursor == b.cursor && r.needStart == b.needStart && r.width == b.width
  {
    var started := EmitArcPair(m, b, arc, arc.startAngle);
    var stepped := ArcSteps(m, started, arc, len, 0, arc.startAngle);
    EnsureArcEnd(m, stepped, arc, len, b.uvOffset)
  }

  /** Whether the corrective end pair of an arc of length `len` is emitted. */
  lemma ArcEndFires(m: Math, b: Builder, arc: Arc, len: real)
    ensures var stepped := ArcSteps(m, EmitArcPair(m, b, arc, arc.startAngle), arc, len, 0, arc.startAngle);
            stepped.uvOffset != b.uvOffset + len / RepeatLength <==> len != 0.0
  {
    StepCountMatchesLength(len);
  }

  /** An arc of length `len` emits `1 + StepCount(len)` pairs, one more
      exactly when `len != 0`, and two triangles per pair after the first. */
  lemma ArcPairsCounts(m: Math, b: Builder, arc: Arc, len: real)
    ensures var r := ArcPairs(m, b, arc, len);
            var pairs := 1 + StepCount(len) + (if len != 0.0 then 1 else 0);
            && |r.verts| == |b.verts| + 2 * pairs
            && |r.uvs| == |b.uvs| + 2 * pairs
            && r.count == b.count + 2 * pairs
            && |r.tris| == |b.tris| + 6 * (pairs - 1)
  {
    ArcEndFires(m, b, arc, len);
  }

  /** An arc only appends: what was emitted before is left as it was. */
  lemma ArcPairsPrefix(m: Math, b: Builder, arc: Arc, len: real)
    ensures var r := ArcPairs(m, b, arc, len);
            && |b.verts| <= |r.verts| && r.verts[..|b.verts|] == b.verts
            && |b.uvs| <= |r.uvs| && r.uvs[..|b.uvs|] == b.uvs
            && |b.tris| <= |r.tris| && r.tris[..|b.tris|] == b.tris
  {
    var started := EmitArcPair(m, b, arc, arc.startAngle);
    var stepped := ArcSteps(m, started, arc, len, 0, arc.startAngle);
    var ended := EnsureArcEnd(m, stepped, arc, len, b.uvOffset);
    ArcStepsPrefix(m, started, arc, len, 0, arc.startAngle);
    PrefixChain(b.verts, started.verts, stepped.verts);
    PrefixChain(b.verts, stepped.verts, ended.verts);
    PrefixChain(b.tris, stepped.tris, ended.tris);
    ArcPairsUVs(m, b, arc, len);
    AppendKeepsPrefix(b.uvs, ArcUVs(b.uvOffset, len));
  }

  /** A list is a prefix of itself with anything appended. */
  lemma AppendKeepsPrefix<T>(a: seq<T>, x: seq<T>)
    ensures (a + x)[..|a|] == a
  {
  }

  /** An arc keeps the builder's bookkeeping. */
  lemma ArcPairsValid(m: Math, b: Builder, arc: Arc, len: real)
    requires Valid(b)
    ensures Valid(ArcPairs(m, b, arc, len))
  {
    var started := EmitArcPair(m, b, arc, arc.startAngle);
    ArcStepsValid(m, started, arc, len, 0, arc.startAngle);
  }

  /** `circle`: the pairs of an arc of length `ArcLength(..)`, then the
      offset wrapped into `[0, 1)` at `initial + len / 5` and the pen
      lifted where it was. */
  function Circle(m: Math, b: Builder, arc: Arc): (r: Builder)
    ensures r.uvOffset == Frac(b.uvOffset + ArcLength(arc.startAngle, arc.endAngle, arc.radius, arc.clockwise) / RepeatLength)
    ensures r.cursor == b.cursor && r.needStart && r.width == b.width
  {
    var len := ArcLength(arc.startAngle, arc.endAngle, arc.radius, arc.clockwise);
    var ended := ArcPairs(m, b, arc, len);
    WrapIsFrac(ended.uvOffset);
    ended.(uvOffset := Fmod(ended.uvOffset * 5.0, 5.0) / 5.0, needStart := true)
  }

  /** `circle` emits a start pair, `StepCount(len)` stepped pairs and a
      corrective end pair exactly when the arc is not empty. */
  lemma CircleCounts(m: Math, b: Builder, arc: Arc)
    ensures var r := Circle(m, b, arc);
            var len := ArcLength(arc.startAngle, arc.endAngle, arc.radius, arc.clockwise);
            var pairs := 1 + StepCount(len) + (if len != 0.0 then 1 else 0);
            && |r.verts| == |b.verts| + 2 * pairs
            && |r.uvs| == |b.uvs| + 2 * pairs
            && r.count == b.count + 2 * pairs
            && |r.tris| == |b.tris| + 6 * (pairs - 1)
  {
    ArcPairsCounts(m, b, arc, ArcLength(arc.startAngle, arc.endAngle, arc.radius, arc.clockwise));
  }

  /** `circle` only appends to the three buffers. */
  lemma CirclePrefix(m: Math, b: Builder, arc: Arc)
    ensures var r := Circle(m, b, arc);
            && |b.verts| <= |r.verts| && r.verts[..|b.verts|] == b.verts
            && |b.uvs| <= |r.uvs| && r.uvs[..|b.uvs|] == b.uvs
            && |b.tris| <= |r.tris| && r.tris[..|b.tris|] == b.tris
  {
    ArcPairsPrefix(m, b, arc, ArcLength(arc.startAngle, arc.endAngle, arc.radius, arc.clockwise));
  }

  /** `circle` keeps the builder's bookkeeping. */
  lemma CircleValid(m: Math, b: Builder, arc: Arc)
    requires Valid(b)
    ensures Valid(Circle(m, b, arc))
  {
    ArcPairsValid(m, b, arc, ArcLength(arc.startAngle, arc.endAngle, arc.radius, arc.clockwise));
  }

  /** The texture coordinates one arc of length `len` emits from offset
      `u0`: the start pair at `u0`, the stepped pairs, and the end pair at
      `u0 + len / 5` when the arc is not empty. */
  function ArcUVs(u0: real, len: real): (s: seq<TexCoord>)
    ensures |s| == 2 * (1 + StepCount(len) + (if len != 0.0 then 1 else 0))
  {
    Pair(u0) + SteppedUVs(u0, StepCount(len)) + (if len != 0.0 then Pair(u0 + len / RepeatLength) else [])
  }

  /** An arc appends exactly `ArcUVs` to the texture coordinates. */
  lemma ArcPairsUVs(m: Math, b: Builder, arc: Arc, len: real)
    ensures ArcPairs(m, b, arc, len).uvs == b.uvs + ArcUVs(b.uvOffset, len)
  {
    var started := EmitArcPair(m, b, arc, arc.startAngle);
    var stepped := ArcSteps(m, started, arc, len, 0, arc.startAngle);
    var ended := EnsureArcEnd(m, stepped, arc, len, b.uvOffset);
    ArcEndFires(m, b, arc, len);
    ArcUVsCompose(b.uvs, stepped.uvs, ended.uvs, b.uvOffset, len, stepped.uvOffset != b.uvOffset + len / RepeatLength);
  }

  /** The start pair, the stepped run and the optional end pair, appended
      in turn, make up `ArcUVs`. */
  lemma ArcUVsCompose(before: seq<TexCoord>, stepped: seq<TexCoord>, ended: seq<TexCoord>, u0: real, len: real, fires: bool)
    requires stepped == before + Pair(u0) + SteppedUVs(u0, StepCount(len))
    requires ended == stepped + (if fires then Pair(u0 + len / RepeatLength) else [])
    requires fires <==> len != 0.0
    ensures ended == before + ArcUVs(u0, len)
  {
    AppendFour(before, Pair(u0), SteppedUVs(u0, StepCount(len)), if fires then Pair(u0 + len / RepeatLength) else []);
  }

  /** Regrouping four appended runs. */
  lemma AppendFour(a: seq<TexCoord>, p: seq<TexCoord>, s: seq<TexCoord>, l: seq<TexCoord>)
    ensures ((a + p) + s) + l == a + ((p + s) + l)
  {
  }

  /** A climbing run followed by a pair at or above its ceiling still climbs. */
  lemma ClimbingAppend(run: seq<TexCoord>, lo: real, hi: real, u2: real)
    requires lo < hi <= u2
    requires Climbing(run, 0, lo, hi)
    ensures Climbing(run + Pair(u2), 0, lo, u2)
  {
  }

  /** Along an arc of non-negative length the texture coordinate starts at
      the old offset, ends `len / 5` beyond it, and never decreases. */
  lemma ArcUVsClimb(u0: real, len: real)
    requires 0.0 <= len
    ensures var s := ArcUVs(u0, len);
            && s[0].u == u0
            && s[|s| - 1].u == u0 + len / RepeatLength
            && forall j, k :: 0 <= j <= k < |s| ==> s[j].u <= s[k].u
  {
    var n := StepCount(len);
    var hi := u0 + n as real / RepeatLength;
    var target := u0 + len / RepeatLength;
    StepCountMatchesLength(len);
    assert hi <= target;
    SteppedClimbing(u0, n);
    ClimbingPrepend(SteppedUVs(u0, n), u0, u0 - 1.0, hi);
    var front := Pair(u0) + SteppedUVs(u0, n);
    if len != 0.0 {
      ClimbingAppend(front, u0 - 1.0, hi, target);
      assert ArcUVs(u0, len) == front + Pair(target);
    } else {
      assert ArcUVs(u0, len) == front;
    }
  }

  /** The same for the builder: an arc's texture coordinates climb from the
      old offset to `len / 5` beyond it. */
  lemma ArcPairsTexCoords(m: Math, b: Builder, arc: Arc, len: real)
    requires 0.0 <= len
    ensures var r := ArcPairs(m, b, arc, len);
            && r.uvs[|b.uvs|].u == b.uvOffset
            && r.uvs[|r.uvs| - 1].u == b.uvOffset + len / RepeatLength
            && forall j, k :: |b.uvs| <= j <= k < |r.uvs| ==> r.uvs[j].u <= r.uvs[k].u
  {
    var s := ArcUVs(b.uvOffset, len);
    ArcPairsUVs(m, b, arc, len);
    ArcUVsClimb(b.uvOffset, len);
    var r := ArcPairs(m, b, arc, len);
    assert forall j :: |b.uvs| <= j < |r.uvs| ==> r.uvs[j] == s[j - |b.uvs|];
  }

  /** The texture coordinates `circle` emits climb from the old offset to
      `len / 5` beyond it, for an arc of non-negative length. */
  lemma CircleTexCoords(m: Math, b: Builder, arc: Arc)
    requires 0.0 <= ArcLength(arc.startAngle, arc.endAngle, arc.radius, arc.clockwise)
    ensures var r := Circle(m, b, arc);
            var len := ArcLength(arc.startAngle, arc.endAngle, arc.radius, arc.clockwise);
            && r.uvs[|b.uvs|].u == b.uvOffset
            && r.uvs[|r.uvs| - 1].u == b.uvOffset + len / RepeatLength
            && forall j, k :: |b.uvs| <= j <= k < |r.uvs| ==> r.uvs[j].u <= r.uvs[k].u
  {
    var len := ArcLength(arc.startAngle, arc.endAngle, arc.radius, arc.clockwise);
    ArcPairsTexCoords(m, b, arc, len);
    assert Circle(m, b, arc).uvs == ArcPairs(m, b, arc, len).uvs;
  }

  /** `stroke`: publishes the three buffers unchanged. */
  function Stroke(b: Builder): (mesh: Mesh)
    ensures mesh.vertices == b.verts && mesh.triangles == b.tris && mesh.uv == b.uvs
    ensures Valid(b) ==> WellFormedMesh(mesh)
  {
    WholeQuadsAreWholeTriangles(|b.tris|);
    Mesh(b.verts, b.tris, b.uvs)
  }

  /** Indices in whole quads are indices in whole triangles. */
  lemma WholeQuadsAreWholeTriangles(n: int)
    ensures n % 6 == 0 ==> n % 3 == 0
  {
    if n % 6 == 0 {
      var k := n / 6;
      assert n == 3 * (2 * k);
    }
  }

  /** The builder interface as seen by its caller: one value per call. */
  datatype Command =
    | WidthCmd(w: real)
    | MoveCmd(p: Vec2)
    | LineCmd(p: Vec2)
    | CircleCmd(arc: Arc)
    | StrokeCmd

  /** One call on the builder. Setting the width writes the public field;
      `stroke` copies the buffers out and leaves the state as it is. */
  function Apply(m: Math, b: Builder, c: Command): (r: Builder)
    ensures Valid(b) ==> Valid(r)
    ensures |b.verts| <= |r.verts| && r.verts[..|b.verts|] == b.verts
    ensures |b.tris| <= |r.tris| && r.tris[..|b.tris|] == b.tris
  {
    match c
    case WidthCmd(w) => b.(width := w)
    case MoveCmd(p) => MoveTo(b, p)
    case LineCmd(p) => LineTo(m, b, p)
    case CircleCmd(arc) =>
      CirclePrefix(m, b, arc);
      assert Valid(b) ==> Valid(Circle(m, b, arc)) by {
        if Valid(b) {
          CircleValid(m, b, arc);
        }
      }
      Circle(m, b, arc)
    case StrokeCmd => b
  }

  /** A whole command sequence, in order. */
  function Replay(m: Math, b: Builder, cmds: seq<Command>): (r: Builder)
    decreases |cmds|
    ensures Valid(b) ==> Valid(r)
    ensures |b.verts| <= |r.verts| && r.verts[..|b.verts|] == b.verts
  {
    if cmds == [] then b else Replay(m, Apply(m, b, cmds[0]), cmds[1..])
  }
}

=== FILE: wrap_solver.dfy ===
/** The rope end's anchor-chain solver (`ropeEnd`, present in two
    near-identical copies). The rope runs from a fixed start to a free end;
    where it wraps around round bodies the solver keeps an ordered chain of
    anchors, the root (the rope start) at index 0. Each frame it reads the
    ray-cast hits between the free end and the last anchor, appends an
    anchor or updates the last anchor's wrap angle, may drop the last anchor
    again, and draws the chain through the ribbon builder. */
module WrapSolver {
  import opened Geometry
  import opened RopeMesh

  /** Scene objects are compared by identity only. */
  type ObjId = nat

  /** What the solver reads of a scene object: its position and x scale. */
  datatype Body = Body(position: Vec2, scaleX: real)

  /** The scene as the solver sees it during one frame. */
  type Scene = ObjId -> Body

  /** One ray-cast hit: the object hit and the contact point. */
  datatype Hit = Hit(obj: ObjId, point: Vec2)

  /** `myColumn`: the wrapped object, its centre when the anchor was made,
      the point where the rope first touched it, the latest tangent point,
      and the signed angle wrapped so far, in radians. */
  datatype Anchor = Anchor(obj: ObjId, center: Vec2, start: Vec2, tangent: Vec2, rad: real)

  /** A body's collision radius: a tenth of its x scale. */
  function BodyRadius(scene: Scene, obj: ObjId): real { scene(obj).scaleX / 10.0 }

  /** The wrap angle beyond which `PerformAnchorOptimization` leaves an anchor alone. */
  const PartialWrapLimit: real := TwoPi - 0.5

  // ---------------------------------------------------------------- anchors

  /** The `myColumn` constructor: not yet wrapped, the latest tangent point
      is the first contact. */
  function NewAnchor(obj: ObjId, center: Vec2, start: Vec2): (a: Anchor)
    ensures a.obj == obj && a.center == center && a.start == start
    ensures a.tangent == a.start && a.rad == 0.0
  {
    Anchor(obj, center, start, start, 0.0)
  }

  /** `Start`: the chain holds exactly the root anchor at the rope start. */
  function StartChain(rootObj: ObjId, rootPos: Vec2): (chain: seq<Anchor>)
    ensures |chain| == 1
    ensures chain[0].obj == rootObj && chain[0].center == rootPos && chain[0].start == rootPos
    ensures chain[0].tangent == rootPos && chain[0].rad == 0.0
  {
    [NewAnchor(rootObj, rootPos, rootPos)]
  }

  function Last(chain: seq<Anchor>): Anchor
    requires |chain| > 0
  {
    chain[|chain| - 1]
  }

  /** Where the ray is cast to: the last tangent point when the rope wraps
      something, the root's own position otherwise. */
  function RayTarget(chain: seq<Anchor>): (p: Vec2)
    requires |chain| > 0
    ensures p == Last(chain).tangent || p == Last(chain).start
    ensures |chain| > 1 ==> p == Last(chain).tangent
    ensures |chain| == 1 ==> p == Last(chain).start
  {
    if |chain| > 1 then Last(chain).tangent else Last(chain).start
  }

  /** Where the undragged free end is pulled to. */
  function MotionTarget(chain: seq<Anchor>): (p: Vec2)
    requires |chain| > 0
    ensures |chain| > 1 ==> p == RayTarget(chain)
    ensures |chain| == 1 ==> p == chain[0].tangent
  {
    Last(chain).tangent
  }

  /** The ray and the pull aim at the same point unless the root alone is
      left and its tangent point has been moved away from its start. */
  lemma TargetsAgree(chain: seq<Anchor>)
    requires |chain| > 0
    ensures RayTarget(chain) == MotionTarget(chain) <==> (|chain| > 1 || Last(chain).tangent == Last(chain).start)
  {
  }

  // --------------------------------------------------------------- geometry

  /** `CalculateAngleBetweenPoints` / `radTwoPOnR`: the signed angle at `c`
      from the direction of `b` to the direction of `a`, in radians. */
  function AngleBetween(m: Math, a: Vec2, b: Vec2, c: Vec2): real {
    SignedAngleRad(m, Sub(b, c), Sub(a, c))
  }

  /** `GetPointAngleOnCircle` / `radOnePointOnCircle`: the polar angle of `p` about `c`. */
  function PointAngle(m: Math, p: Vec2, c: Vec2): real {
    SignedAngleRad(m, Vec2(1.0, 0.0), Sub(p, c))
  }

  /** When `q` is `p` turned clockwise by `a` about `c` (less than half a
      turn either way), the angle from `q` back to `p` is `a`: a positive
      angle means a clockwise turn. */
  lemma AngleOfTurn(m: Math, p: Vec2, q: Vec2, c: Vec2, a: real)
    requires AngleLaws(m)
    requires Sub(p, c) != Origin && -Pi < a < Pi
    requires Sub(q, c) == Rotate(m, Sub(p, c), a)
    ensures AngleBetween(m, p, q, c) == a
  {
    assert m.signedAngle(Rotate(m, Sub(p, c), a), Sub(p, c)) == a * 180.0 / Pi;
  }

  /** A point lies along its polar angle: at that angle, at the point's
      distance from the centre. */
  lemma PointAngleDirection(m: Math, p: Vec2, c: Vec2)
    requires AngleLaws(m)
    requires p != c
    ensures var phi := PointAngle(m, p, c);
            Add(Scale(Vec2(m.cos(phi), m.sin(phi)), Magnitude(m, Sub(p, c))), c) == p
  {
    assert Sub(p, c) != Origin;
    var phi := PointAngle(m, p, c);
    assert Scale(Vec2(m.cos(phi), m.sin(phi)), Magnitude(m, Sub(p, c))) == Sub(p, c);
  }

  /** Scaling a vector by `s` and rotating it scales its squared length by `s * s`. */
  lemma ScaledRotationLength(m: Math, e: Vec2, s: real, angle: real)
    ensures Lawful(m) ==> Dot(Rotate(m, Scale(e, s), angle), Rotate(m, Scale(e, s), angle)) == s * s * Dot(e, e)
  {
    if Lawful(m) {
      RotatePreservesLength(m, Scale(e, s), angle);
      assert Dot(Scale(e, s), Scale(e, s)) == s * s * Dot(e, e);
    }
  }

  /** `s * n == r` when `s == r / n`. */
  lemma DivTimes(r: real, n: real)
    requires n != 0.0
    ensures (r / n) * n == r
  {
  }

  /** A ratio of a number to one at least as large in magnitude lies in
      `[-1, 1]`, the arc-cosine's domain. */
  lemma RatioInUnit(r: real, n: real)
    requires Abs(r) <= n && n != 0.0
    ensures -1.0 <= r / n <= 1.0
  {
    var q := r / n;
    DivTimes(r, n);
    SignOfFactor(1.0 - q, n);
    SignOfFactor(q + 1.0, n);
  }

  /** A factor whose product with a positive number is non-negative is itself non-negative. */
  /** Strictly inside the circle's reach the ratio is strictly inside the
      unit interval, and non-zero when the radius is. */
  lemma RatioInOpenUnit(r: real, n: real)
    requires Abs(r) < n
    ensures -1.0 < r / n < 1.0
    ensures r != 0.0 ==> r / n != 0.0
  {
    var q := r / n;
    DivTimes(r, n);
    var below := 1.0 - q;
    var above := q + 1.0;
    assert below * n == n - r && above * n == r + n;
    PositiveOfFactor(below, n);
    PositiveOfFactor(above, n);
  }

  lemma PositiveOfFactor(x: real, n: real)
    requires n > 0.0 && x * n > 0.0
    ensures x > 0.0
  {
  }

  lemma SignOfFactor(x: real, n: real)
    requires n > 0.0 && x * n >= 0.0
    ensures x >= 0.0
  {
  }

  /** The engine computes a tangent point (rather than NaN) exactly when
      `ext` is off the centre and the scale factor `radius / |ext - center|`
      lies in `[-1, 1]`, the domain of `Mathf.Acos`. */
  predicate TangentDefined(m: Math, center: Vec2, ext: Vec2, radius: real) {
    && Magnitude(m, Sub(ext, center)) != 0.0
    && Abs(radius) <= Magnitude(m, Sub(ext, center))
  }

  /** `CalculateTangentPoint` / `CalcQieDian`: the tangent point on the
      circle of `radius` about `center` as seen from `ext`. The offset
      `ext - center` is scaled onto the circle and rotated by `acos` of the
      scale factor, negatively when `ext` lies clockwise of `align`. */
  function Tangent(m: Math, center: Vec2, ext: Vec2, radius: real, align: Vec2): (t: Vec2)
    requires TangentDefined(m, center, ext, radius)
    ensures Lawful(m) ==> Dist2(t, center) == radius * radius
  {
    var e := Sub(ext, center);
    var n := Magnitude(m, e);
    var s := radius / n;
    var angle := if AngleBetween(m, ext, align, center) < 0.0 then -m.acos(s) else m.acos(s);
    var g := Rotate(m, Scale(e, s), angle);
    assert Lawful(m) ==> Dot(g, g) == radius * radius by {
      if Lawful(m) {
        RotatedRadius(m, e, n, radius, angle);
      }
    }
    assert Sub(Add(g, center), center) == g;
    Add(g, center)
  }

  /** Turning the offset `e`, scaled to length `radius`, keeps that length. */
  lemma RotatedRadius(m: Math, e: Vec2, n: real, radius: real, angle: real)
    requires Lawful(m) && n == Magnitude(m, e) && n != 0.0
    ensures var g := Rotate(m, Scale(e, radius / n), angle); Dot(g, g) == radius * radius
  {
    var s := radius / n;
    ScaledRotationLength(m, e, s, angle);
    assert n * n == Dot(e, e);
    DivTimes(radius, n);
    assert s * s * (n * n) == (s * n) * (s * n);
  }

  /** When the rotation's cosine equals the scale factor, the rotated,
      scaled vector projects onto the original as `s * s * |e|^2`. */
  lemma ProjectionOfRotated(m: Math, e: Vec2, s: real, angle: real)
    requires m.cos(angle) == s
    ensures Dot(Rotate(m, Scale(e, s), angle), e) == s * s * Dot(e, e)
  {
    RotateScale(m, e, s, angle);
    RotateDotOriginal(m, e, angle);
    var q := Rotate(m, e, angle);
    assert Dot(Scale(q, s), e) == s * Dot(q, e);
  }

  /** A vector whose squared length equals its projection onto `e` is
      perpendicular to its difference from `e`. */
  lemma PerpendicularDifference(g: Vec2, e: Vec2)
    requires Dot(g, g) == Dot(g, e)
    ensures Dot(g, Sub(g, e)) == 0.0
  {
  }

  /** The tangent point really is one: the radius to it is perpendicular to
      the line from `ext`. */
  lemma TangentTouches(m: Math, center: Vec2, ext: Vec2, radius: real, align: Vec2)
    requires Lawful(m)
    requires TangentDefined(m, center, ext, radius)
    ensures var t := Tangent(m, center, ext, radius, align);
            Dot(Sub(t, center), Sub(t, ext)) == 0.0
  {
    var t := Tangent(m, center, ext, radius, align);
    var e := Sub(ext, center);
    var n := Magnitude(m, e);
    var s := radius / n;
    var angle := if AngleBetween(m, ext, align, center) < 0.0 then -m.acos(s) else m.acos(s);
    var g := Rotate(m, Scale(e, s), angle);
    assert t == Add(g, center);
    RatioInUnit(radius, n);
    assert m.cos(angle) == s by {
      assert m.cos(m.acos(s)) == s;
      assert -m.acos(s) + m.acos(s) == 0.0;
    }
    ProjectionOfRotated(m, e, s, angle);
    ScaledRotationLength(m, e, s, angle);
    assert Dot(g, g) == Dot(g, e);
    PerpendicularDifference(g, e);
    assert Sub(t, center) == g;
    assert Sub(t, ext) == Sub(g, e);
  }

  /** The tangent point is the point where the segment from the centre to the
      free end crosses the circle, turned about the centre: clockwise by
      acos(radius / distance) unless the align point lies at a negative angle
      from the free end, and counter-clockwise by the same amount otherwise. */
  lemma TangentIsTurn(m: Math, center: Vec2, ext: Vec2, radius: real, align: Vec2)
    requires TangentDefined(m, center, ext, radius)
    ensures var n := Magnitude(m, Sub(ext, center));
            var p := Add(Scale(Sub(ext, center), radius / n), center);
            var turn := if AngleBetween(m, ext, align, center) < 0.0 then -m.acos(radius / n) else m.acos(radius / n);
            Sub(Tangent(m, center, ext, radius, align), center) == Rotate(m, Sub(p, center), turn)
  {
    var e := Sub(ext, center);
    var s := radius / Magnitude(m, e);
    assert Sub(Add(Scale(e, s), center), center) == Scale(e, s);
  }

  /** The turn the tangent computation makes lies strictly between -pi and
      pi, is never zero, and is negative exactly when the align angle is. */
  lemma TurnSign(m: Math, s: real, alignAngle: real)
    requires AngleLaws(m)
    requires -1.0 < s < 1.0
    ensures var turn := if alignAngle < 0.0 then -m.acos(s) else m.acos(s);
            && -Pi < turn < Pi && turn != 0.0
            && (turn < 0.0 <==> alignAngle < 0.0)
  {
    assert 0.0 < m.acos(s) < Pi;
  }

  /** Strictly outside a circle of non-zero radius, the point where the
      segment from the centre to the free end crosses the circle is not the
      centre. */
  lemma ProjectedNonZero(m: Math, center: Vec2, ext: Vec2, radius: real)
    requires Lawful(m)
    requires TangentDefined(m, center, ext, radius)
    requires radius != 0.0 && Abs(radius) < Magnitude(m, Sub(ext, center))
    ensures Scale(Sub(ext, center), radius / Magnitude(m, Sub(ext, center))) != Origin
  {
    var e := Sub(ext, center);
    var n := Magnitude(m, e);
    RatioInOpenUnit(radius, n);
    SqrtOfSquare(m, 0.0);
    assert e != Origin;
    ScaleNonZero(e, radius / n);
  }

  /** Which of the two tangent points is taken: seen from the centre, the
      tangent point lies on the same side of the free end's direction as the
      align point, so a negative align angle gives a negative turn and a
      non-negative one a positive turn. */
  lemma TangentSide(m: Math, center: Vec2, ext: Vec2, radius: real, align: Vec2)
    requires Lawful(m) && AngleLaws(m)
    requires TangentDefined(m, center, ext, radius)
    requires radius != 0.0 && Abs(radius) < Magnitude(m, Sub(ext, center))
    ensures var n := Magnitude(m, Sub(ext, center));
            var p := Add(Scale(Sub(ext, center), radius / n), center);
            var t := Tangent(m, center, ext, radius, align);
            && AngleBetween(m, p, t, center) != 0.0
            && (AngleBetween(m, p, t, center) < 0.0 <==> AngleBetween(m, ext, align, center) < 0.0)
  {
    var e := Sub(ext, center);
    var n := Magnitude(m, e);
    var s := radius / n;
    var p := Add(Scale(e, s), center);
    var t := Tangent(m, center, ext, radius, align);
    var alignAngle := AngleBetween(m, ext, align, center);
    var turn := if alignAngle < 0.0 then -m.acos(s) else m.acos(s);
    TangentIsTurn(m, center, ext, radius, align);
    RatioInOpenUnit(radius, n);
    TurnSign(m, s, alignAngle);
    ProjectedNonZero(m, center, ext, radius);
    assert Sub(p, center) == Scale(e, s);
    AngleOfTurn(m, p, t, center, turn);
  }

  // ------------------------------------------------------------ wrap update

  /** The sign-flip test of `UpdateExistingAnchorWrap`: adding `delta`
      carries the wrap angle across zero. */
  predicate Unwinds(rad: real, delta: real) {
    rad * (rad + delta) < 0.0
  }

  /** The product test means exactly that the wrap angle changes sign. */
  lemma UnwindsIsSignFlip(rad: real, delta: real)
    ensures Unwinds(rad, delta) <==> (rad > 0.0 && rad + delta < 0.0) || (rad < 0.0 && rad + delta > 0.0)
  {
    var w := rad + delta;
    if rad > 0.0 && w >= 0.0 { assert rad * w >= 0.0; }
    if rad < 0.0 && w <= 0.0 { assert rad * w == (-rad) * (-w); }
    if rad > 0.0 && w < 0.0 { assert rad * (-w) > 0.0; }
    if rad < 0.0 && w > 0.0 { assert (-rad) * w > 0.0; }
  }

  /** The free end is neither on nor inside the last anchor's peg, so its
      tangent point is defined. */
  predicate WrapDefined(m: Math, scene: Scene, chain: seq<Anchor>, freeEnd: Vec2) {
    |chain| > 0 && TangentDefined(m, Last(chain).center, freeEnd, BodyRadius(scene, Last(chain).obj))
  }

  /** The new tangent point of the last anchor as seen from the free end. */
  function WrapTangent(m: Math, scene: Scene, a: Anchor, freeEnd: Vec2): Vec2
    requires TangentDefined(m, a.center, freeEnd, BodyRadius(scene, a.obj))
  {
    Tangent(m, a.center, freeEnd, BodyRadius(scene, a.obj), a.tangent)
  }

  /** The angle the rope turned around the last anchor since the last frame. */
  function WrapDelta(m: Math, scene: Scene, a: Anchor, freeEnd: Vec2): real
    requires TangentDefined(m, a.center, freeEnd, BodyRadius(scene, a.obj))
  {
    AngleBetween(m, a.tangent, WrapTangent(m, scene, a, freeEnd), a.center)
  }

  /** `RemoveLastAnchor`: drops exactly the last anchor. */
  function RemoveLast(chain: seq<Anchor>): (r: seq<Anchor>)
    requires |chain| > 0
    ensures |r| == |chain| - 1
    ensures forall j :: 0 <= j < |r| ==> r[j] == chain[j]
    ensures r + [Last(chain)] == chain
  {
    chain[..|chain| - 1]
  }

  /** `UpdateExistingAnchorWrap`: pops the last anchor when the turn would
      carry its wrap angle across zero; otherwise adds the turn to the angle
      and moves the tangent point. Only the last anchor is touched. */
  function UpdateWrap(m: Math, scene: Scene, chain: seq<Anchor>, freeEnd: Vec2): (r: seq<Anchor>)
    requires WrapDefined(m, scene, chain, freeEnd)
    ensures |r| == |chain| || |r| == |chain| - 1
    ensures r[..|chain| - 1] == chain[..|chain| - 1]
    ensures |r| < |chain| <==> Unwinds(Last(chain).rad, WrapDelta(m, scene, Last(chain), freeEnd))
    ensures |r| < |chain| ==> Last(chain).rad != 0.0
    ensures |r| == |chain| ==>
              && Last(r).obj == Last(chain).obj && Last(r).center == Last(chain).center
              && Last(r).start == Last(chain).start
              && Last(r).rad == Last(chain).rad + WrapDelta(m, scene, Last(chain), freeEnd)
              && Last(chain).rad * Last(r).rad >= 0.0
    ensures |r| == |chain| ==> Last(r).tangent == WrapTangent(m, scene, Last(chain), freeEnd)
    ensures |r| == |chain| && Lawful(m) ==>
              Dist2(Last(r).tangent, Last(r).center) == Sq(BodyRadius(scene, Last(r).obj))
  {
    var a := Last(chain);
    var t := WrapTangent(m, scene, a, freeEnd);
    var delta := AngleBetween(m, a.tangent, t, a.center);
    if a.rad * (a.rad + delta) < 0.0 then
      RemoveLast(chain)
    else
      chain[..|chain| - 1] + [a.(rad := a.rad + delta, tangent := t)]
  }

  /** A fresh anchor cannot unwind: the first update after it is made keeps it. */
  lemma FreshAnchorKept(m: Math, scene: Scene, chain: seq<Anchor>, freeEnd: Vec2)
    requires WrapDefined(m, scene, chain, freeEnd)
    requires Last(chain).rad == 0.0
    ensures |UpdateWrap(m, scene, chain, freeEnd)| == |chain|
  {
  }

  /** When the free end drags the tangent point clockwise about the peg by
      less than half a turn, the wrap angle grows by exactly that turn
      (shrinks, for a counter-clockwise drag). */
  lemma WrapDeltaIsTurn(m: Math, scene: Scene, chain: seq<Anchor>, freeEnd: Vec2, a: real)
    requires AngleLaws(m)
    requires WrapDefined(m, scene, chain, freeEnd)
    requires Last(chain).tangent != Last(chain).center && -Pi < a < Pi
    requires Sub(WrapTangent(m, scene, Last(chain), freeEnd), Last(chain).center)
             == Rotate(m, Sub(Last(chain).tangent, Last(chain).center), a)
    ensures WrapDelta(m, scene, Last(chain), freeEnd) == a
  {
    var an := Last(chain);
    assert Sub(an.tangent, an.center) != Origin;
    AngleOfTurn(m, an.tangent, WrapTangent(m, scene, an, freeEnd), an.center, a);
  }

  /** A kept anchor's new tangent point is where the straight rope from the
      free end touches the peg: the radius there is perpendicular to the rope. */
  lemma UpdateWrapTouches(m: Math, scene: Scene, chain: seq<Anchor>, freeEnd: Vec2)
    requires Lawful(m)
    requires WrapDefined(m, scene, chain, freeEnd)
    ensures var r := UpdateWrap(m, scene, chain, freeEnd);
            |r| == |chain| ==>
              Dot(Sub(Last(r).tangent, Last(r).center), Sub(Last(r).tangent, freeEnd)) == 0.0
  {
    var a := Last(chain);
    TangentTouches(m, a.center, freeEnd, BodyRadius(scene, a.obj), a.tangent);
  }

  // ------------------------------------------------------------ hit handling

  /** Every tangent point the frame's hit handling computes is defined. */
  predicate TangentsDefined(m: Math, scene: Scene, chain: seq<Anchor>, freeEnd: Vec2, hits: seq<Hit>) {
    && |chain| > 0
    && (if |hits| > 1 then
          if hits[1].obj != Last(chain).obj then
            TangentDefined(m, scene(hits[1].obj).position, freeEnd, BodyRadius(scene, hits[1].obj))
          else WrapDefined(m, scene, chain, freeEnd)
        else |chain| > 1 ==> WrapDefined(m, scene, chain, freeEnd))
  }

  /** `AddNewAnchor`: a fresh anchor on the hit object, starting at the
      tangent point seen from the free end towards the contact point. */
  function AddAnchor(m: Math, scene: Scene, chain: seq<Anchor>, freeEnd: Vec2, hit: Hit): (r: seq<Anchor>)
    requires TangentDefined(m, scene(hit.obj).position, freeEnd, BodyRadius(scene, hit.obj))
    ensures |r| == |chain| + 1 && r[..|chain|] == chain
    ensures Last(r).obj == hit.obj && Last(r).center == scene(hit.obj).position
    ensures Last(r).rad == 0.0 && Last(r).tangent == Last(r).start
    ensures Last(r).start == Tangent(m, scene(hit.obj).position, freeEnd, BodyRadius(scene, hit.obj), hit.point)
    ensures Lawful(m) ==> Dist2(Last(r).start, Last(r).center) == Sq(BodyRadius(scene, hit.obj))
  {
    var center := scene(hit.obj).position;
    var t := Tangent(m, center, freeEnd, BodyRadius(scene, hit.obj), hit.point);
    chain + [NewAnchor(hit.obj, center, t)]
  }

  /** A new anchor starts where the straight rope from the free end touches
      the hit peg. */
  lemma AddAnchorTouches(m: Math, scene: Scene, chain: seq<Anchor>, freeEnd: Vec2, hit: Hit)
    requires Lawful(m)
    requires TangentDefined(m, scene(hit.obj).position, freeEnd, BodyRadius(scene, hit.obj))
    ensures var r := AddAnchor(m, scene, chain, freeEnd, hit);
            Dot(Sub(Last(r).start, Last(r).center), Sub(Last(r).start, freeEnd)) == 0.0
  {
    TangentTouches(m, scene(hit.obj).position, freeEnd, BodyRadius(scene, hit.obj), hit.point);
  }

  /** `ProcessRaycastResults`: the second hit decides. A new object appends an
      anchor, the last anchor's own object updates its wrap, and with fewer
      than two hits the wrap is updated only when something is wrapped. */
  function ProcessHits(m: Math, scene: Scene, chain: seq<Anchor>, freeEnd: Vec2, hits: seq<Hit>): (r: seq<Anchor>)
    requires TangentsDefined(m, scene, chain, freeEnd, hits)
    ensures |chain| - 1 <= |r| <= |chain| + 1
    ensures r[..|chain| - 1] == chain[..|chain| - 1]
    ensures |r| == |chain| + 1 <==> |hits| > 1 && hits[1].obj != Last(chain).obj
    ensures |r| == |chain| + 1 ==>
              r[..|chain|] == chain && Last(r).obj == hits[1].obj && Last(r).rad == 0.0
    ensures |hits| <= 1 && |chain| == 1 ==> r == chain
    ensures |r| == 0 ==> |chain| == 1 && |hits| > 1 && hits[1].obj == chain[0].obj
    ensures |hits| > 1 && hits[1].obj != Last(chain).obj ==>
              r == AddAnchor(m, scene, chain, freeEnd, hits[1])
    ensures (|hits| > 1 && hits[1].obj == Last(chain).obj) || (|hits| <= 1 && |chain| > 1) ==>
              r == UpdateWrap(m, scene, chain, freeEnd)
  {
    if |hits| > 1 then
      if hits[1].obj != Last(chain).obj then AddAnchor(m, scene, chain, freeEnd, hits[1])
      else UpdateWrap(m, scene, chain, freeEnd)
    else if |chain| > 1 then UpdateWrap(m, scene, chain, freeEnd)
    else chain
  }

  // ------------------------------------------------------------ optimization

  /** The direction from the centre to the middle of the wrapped arc. */
  function MidDirection(m: Math, a: Anchor): Vec2 {
    var mid := Add(Rotate(m, Sub(a.start, a.center), a.rad / 2.0), a.center);
    Normalize(m, Sub(mid, a.center))
  }

  /** The middle of the wrapped arc lies on the anchor's circle. */
  lemma MidPointOnCircle(m: Math, a: Anchor)
    requires Lawful(m)
    ensures var mid := Add(Rotate(m, Sub(a.start, a.center), a.rad / 2.0), a.center);
            Dist2(mid, a.center) == Dist2(a.start, a.center)
  {
    var v := Rotate(m, Sub(a.start, a.center), a.rad / 2.0);
    assert Sub(Add(v, a.center), a.center) == v;
    RotatePreservesLength(m, Sub(a.start, a.center), a.rad / 2.0);
  }

  /** The direction from the last anchor's first contact back to the
      previous anchor's tangent point. */
  function PrevDirection(m: Math, prev: Anchor, a: Anchor): Vec2 {
    Normalize(m, Sub(prev.tangent, a.start))
  }

  /** `PerformAnchorOptimization`: drops the last anchor when it wraps less
      than `2 pi - 0.5` and the middle of its arc points the same way as
      the rope towards the previous anchor, i.e. the rope has slipped off. */
  function Optimize(m: Math, chain: seq<Anchor>): (r: seq<Anchor>)
    ensures r == chain || (|chain| > 1 && r == RemoveLast(chain))
    ensures |chain| <= 1 ==> r == chain
    ensures |chain| > 1 && Abs(Last(chain).rad) >= PartialWrapLimit ==> r == chain
    ensures |chain| > 1 ==>
              (r != chain <==>
                 Abs(Last(chain).rad) < PartialWrapLimit
                 && Dot(MidDirection(m, Last(chain)), PrevDirection(m, chain[|chain| - 2], Last(chain))) > 0.0)
  {
    if |chain| <= 1 then chain
    else
      var a := Last(chain);
      if Abs(a.rad) < PartialWrapLimit
         && Dot(MidDirection(m, a), PrevDirection(m, chain[|chain| - 2], a)) > 0.0
      then RemoveLast(chain)
      else chain
  }

  /** One frame's chain update: hit handling, then the optimization pass. */
  function ChainStep(m: Math, scene: Scene, chain: seq<Anchor>, freeEnd: Vec2, hits: seq<Hit>): (r: seq<Anchor>)
    requires TangentsDefined(m, scene, chain, freeEnd, hits)
  {
    Optimize(m, ProcessHits(m, scene, chain, freeEnd, hits))
  }

  /** A frame changes the chain's length by -2 to +1 and leaves every anchor
      below the last two as it was. */
  lemma ChainStepBounds(m: Math, scene: Scene, chain: seq<Anchor>, freeEnd: Vec2, hits: seq<Hit>)
    requires TangentsDefined(m, scene, chain, freeEnd, hits)
    ensures var r := ChainStep(m, scene, chain, freeEnd, hits);
            && |chain| - 2 <= |r| <= |chain| + 1
            && (|chain| >= 2 ==> r[..|chain| - 2] == chain[..|chain| - 2])
  {
    var p := ProcessHits(m, scene, chain, freeEnd, hits);
    var r := Optimize(m, p);
    if |chain| >= 2 {
      assert p[..|chain| - 2] == p[..|chain| - 1][..|chain| - 2];
      assert chain[..|chain| - 2] == chain[..|chain| - 1][..|chain| - 2];
      if r != p {
        assert |p| >= |chain| - 1;
        assert r == p[..|p| - 1];
        assert r[..|chain| - 2] == p[..|chain| - 2];
      }
    }
  }

  /** The root survives a frame unless it is the only anchor and the ray hits
      its own object. */
  lemma ChainStepKeepsRoot(m: Math, scene: Scene, chain: seq<Anchor>, freeEnd: Vec2, hits: seq<Hit>)
    requires TangentsDefined(m, scene, chain, freeEnd, hits)
    requires |chain| > 1 || |hits| <= 1 || hits[1].obj != chain[0].obj
    ensures var r := ChainStep(m, scene, chain, freeEnd, hits);
            |r| > 0 && r[0] == chain[0]
  {
    var p := ProcessHits(m, scene, chain, freeEnd, hits);
    assert |p| > 0 && p[0] == chain[0] by {
      if |chain| > 1 {
        assert p[0] == p[..|chain| - 1][0];
      } else if |p| == |chain| + 1 {
        assert p[0] == p[..|chain|][0];
      }
    }
    var r := Optimize(m, p);
    if r != p {
      assert r[0] == p[0];
    }
  }

  /** Every non-root anchor's first contact and latest tangent point lie on
      its body's circle. */
  predicate OnCircles(scene: Scene, chain: seq<Anchor>) {
    forall j :: 1 <= j < |chain| ==>
      && Dist2(chain[j].start, chain[j].center) == Sq(BodyRadius(scene, chain[j].obj))
      && Dist2(chain[j].tangent, chain[j].center) == Sq(BodyRadius(scene, chain[j].obj))
  }

  /** Dropping anchors from the end keeps the rest on their circles. */
  lemma OnCirclesPrefix(scene: Scene, chain: seq<Anchor>, n: nat)
    requires OnCircles(scene, chain) && n <= |chain|
    ensures OnCircles(scene, chain[..n])
  {
    forall j | 1 <= j < n
      ensures chain[..n][j] == chain[j]
    {
    }
  }

  /** In an unchanging scene a frame keeps every anchor on its circle. */
  lemma ChainStepOnCircles(m: Math, scene: Scene, chain: seq<Anchor>, freeEnd: Vec2, hits: seq<Hit>)
    requires Lawful(m)
    requires TangentsDefined(m, scene, chain, freeEnd, hits)
    requires OnCircles(scene, chain)
    ensures OnCircles(scene, ChainStep(m, scene, chain, freeEnd, hits))
  {
    var p := ProcessHits(m, scene, chain, freeEnd, hits);
    var k := |chain| - 1;
    OnCirclesPrefix(scene, chain, k);
    assert OnCircles(scene, p) by {
      if |p| == |chain| + 1 {
        forall j | 1 <= j < |p|
          ensures Dist2(p[j].start, p[j].center) == Sq(BodyRadius(scene, p[j].obj))
          ensures Dist2(p[j].tangent, p[j].center) == Sq(BodyRadius(scene, p[j].obj))
        {
          if j < |chain| {
            assert p[j] == p[..|chain|][j] == chain[j];
          }
        }
      } else if |p| == |chain| {
        forall j | 1 <= j < |p|
          ensures Dist2(p[j].start, p[j].center) == Sq(BodyRadius(scene, p[j].obj))
          ensures Dist2(p[j].tangent, p[j].center) == Sq(BodyRadius(scene, p[j].obj))
        {
          if j < k {
            assert p[j] == p[..k][j] == chain[..k][j] == chain[j];
          } else {
            assert j == k && p[j] == Last(p);
            assert Last(p).start == Last(chain).start && Last(p).center == Last(chain).center;
          }
        }
      } else {
        assert p == chain[..k];
      }
    }
    var r := Optimize(m, p);
    if r != p {
      OnCirclesPrefix(scene, p, |p| - 1);
    }
  }

  // -------------------------------------------------------------- many frames

  /** What one frame feeds the solver: the free end's position and the hits. */
  datatype FrameInput = FrameInput(freeEnd: Vec2, hits: seq<Hit>)

  /** Every frame of the run has its tangent points defined. */
  predicate RunDefined(m: Math, scene: Scene, chain: seq<Anchor>, inputs: seq<FrameInput>)
    decreases |inputs|
  {
    inputs == [] ||
    (&& TangentsDefined(m, scene, chain, inputs[0].freeEnd, inputs[0].hits)
     && RunDefined(m, scene, ChainStep(m, scene, chain, inputs[0].freeEnd, inputs[0].hits), inputs[1..]))
  }

  /** The chain after a run of frames. */
  function Run(m: Math, scene: Scene, chain: seq<Anchor>, inputs: seq<FrameInput>): seq<Anchor>
    requires RunDefined(m, scene, chain, inputs)
    decreases |inputs|
  {
    if inputs == [] then chain
    else Run(m, scene, ChainStep(m, scene, chain, inputs[0].freeEnd, inputs[0].hits), inputs[1..])
  }

  /** No frame's second hit names the given object. */
  predicate NeverHits(inputs: seq<FrameInput>, obj: ObjId) {
    forall k :: 0 <= k < |inputs| && |inputs[k].hits| > 1 ==> inputs[k].hits[1].obj != obj
  }

  /** As long as the ray never reports the rope start's own object, the
      root anchor stays in place and the chain never empties. */
  lemma {:induction false} RunKeepsRoot(m: Math, scene: Scene, chain: seq<Anchor>, inputs: seq<FrameInput>)
    requires RunDefined(m, scene, chain, inputs)
    requires |chain| > 0
    requires NeverHits(inputs, chain[0].obj)
    decreases |inputs|
    ensures |Run(m, scene, chain, inputs)| > 0 && Run(m, scene, chain, inputs)[0] == chain[0]
  {
    if inputs != [] {
      var i := inputs[0];
      assert |i.hits| > 1 ==> i.hits[1].obj != chain[0].obj;
      ChainStepKeepsRoot(m, scene, chain, i.freeEnd, i.hits);
      var next := ChainStep(m, scene, chain, i.freeEnd, i.hits);
      assert NeverHits(inputs[1..], next[0].obj) by {
        forall k | 0 <= k < |inputs[1..]| && |inputs[1..][k].hits| > 1
          ensures inputs[1..][k].hits[1].obj != next[0].obj
        {
          assert inputs[1..][k] == inputs[k + 1];
        }
      }
      RunKeepsRoot(m, scene, next, inputs[1..]);
    }
  }

  /** In an unchanging scene every anchor stays on its circle for a whole run. */
  lemma {:induction false} RunOnCircles(m: Math, scene: Scene, chain: seq<Anchor>, inputs: seq<FrameInput>)
    requires Lawful(m)
    requires RunDefined(m, scene, chain, inputs)
    requires OnCircles(scene, chain)
    decreases |inputs|
    ensures OnCircles(scene, Run(m, scene, chain, inputs))
  {
    if inputs != [] {
      ChainStepOnCircles(m, scene, chain, inputs[0].freeEnd, inputs[0].hits);
      RunOnCircles(m, scene, ChainStep(m, scene, chain, inputs[0].freeEnd, inputs[0].hits), inputs[1..]);
    }
  }

  // --------------------------------------------------------------- rendering

  /** `RenderColumnArc`: a whole turn when the wrap reaches `2 pi` (then the
      pen moves to the anchor's start), a partial arc from the tangent
      point's angle when it is not zero, nothing otherwise. The arc radius
      is the body radius plus half the rope width. */
  function ArcCommands(m: Math, scene: Scene, a: Anchor, width: real): seq<Command> {
    var radius := BodyRadius(scene, a.obj) + width / 2.0;
    if Abs(a.rad) >= TwoPi then
      (if a.rad > 0.0 then [CircleCmd(Arc(a.center, radius, 0.0, TwoPi, false))]
       else [CircleCmd(Arc(a.center, radius, TwoPi, 0.0, true))])
      + [MoveCmd(a.start)]
    else if Abs(a.rad) != 0.0 then
      var from := PointAngle(m, a.tangent, a.center);
      [CircleCmd(Arc(a.center, radius, from, from + a.rad, a.rad < 0.0))]
    else
      []
  }

  /** `RenderAnchorSegment`: a line to the tangent point pushed out by half
      the width, the arc, and a pen move to the pushed-out first contact. */
  /** Where a segment's straight part ends: the tangent point pushed away
      from the peg's centre by half the rope width. */
  function OffsetTangent(m: Math, a: Anchor, width: real): Vec2 {
    Add(a.tangent, Scale(Normalize(m, Sub(a.tangent, a.center)), width / 2.0))
  }

  /** Where the pen goes after a segment: the first contact pushed away
      from the peg's centre by half the rope width. */
  function OffsetStart(m: Math, a: Anchor, width: real): Vec2 {
    Add(a.start, Scale(Normalize(m, Sub(a.start, a.center)), width / 2.0))
  }

  function SegmentCommands(m: Math, scene: Scene, a: Anchor, width: real): seq<Command> {
    [LineCmd(OffsetTangent(m, a, width))] + ArcCommands(m, scene, a, width) + [MoveCmd(OffsetStart(m, a, width))]
  }

  /** The render loop from anchor `i` down to anchor 1; the root is never drawn. */
  function Segments(m: Math, scene: Scene, chain: seq<Anchor>, i: nat, width: real): seq<Command>
    requires i < |chain|
    decreases i
  {
    if i == 0 then []
    else SegmentCommands(m, scene, chain[i], width) + Segments(m, scene, chain, i - 1, width)
  }

  /** `RenderRope`: set the width, put the pen at the free end, draw every
      non-root anchor from the last one back, finish with a line to the rope
      start and publish the mesh. */
  function RenderRope(m: Math, scene: Scene, chain: seq<Anchor>, freeEnd: Vec2, rootPos: Vec2, width: real): (cmds: seq<Command>)
    ensures |cmds| >= 4
    ensures cmds[..2] == [WidthCmd(width), MoveCmd(freeEnd)]
    ensures cmds[|cmds| - 2..] == [LineCmd(rootPos), StrokeCmd]
  {
    [WidthCmd(width), MoveCmd(freeEnd)]
    + (if |chain| == 0 then [] else Segments(m, scene, chain, |chain| - 1, width))
    + [LineCmd(rootPos), StrokeCmd]
  }

  /** How many commands satisfy `p`. */
  function CountOf(cmds: seq<Command>, p: Command -> bool): nat {
    if cmds == [] then 0 else (if p(cmds[0]) then 1 else 0) + CountOf(cmds[1..], p)
  }

  lemma {:induction false} CountOfAppend(a: seq<Command>, b: seq<Command>, p: Command -> bool)
    ensures CountOf(a + b, p) == CountOf(a, p) + CountOf(b, p)
    decreases |a|
  {
    if a == [] {
      assert a + b == b;
    } else {
      assert (a + b)[0] == a[0];
      assert (a + b)[1..] == a[1..] + b;
      CountOfAppend(a[1..], b, p);
    }
  }

  lemma CountOfThree(a: seq<Command>, b: seq<Command>, c: seq<Command>, p: Command -> bool)
    ensures CountOf(a + b + c, p) == CountOf(a, p) + CountOf(b, p) + CountOf(c, p)
  {
    CountOfAppend(a + b, c, p);
    CountOfAppend(a, b, p);
  }

  lemma CountOfSingle(c: Command, p: Command -> bool)
    ensures CountOf([c], p) == if p(c) then 1 else 0
  {
    assert [c][1..] == [];
  }

  predicate IsLine(c: Command) { c.LineCmd? }

  predicate IsCircle(c: Command) { c.CircleCmd? }

  /** The reference count: anchors 1..i whose wrap angle is not zero. */
  function WrappedCount(chain: seq<Anchor>, i: nat): nat
    requires i < |chain|
  {
    if i == 0 then 0 else (if chain[i].rad != 0.0 then 1 else 0) + WrappedCount(chain, i - 1)
  }

  /** One segment is one line, and one arc exactly when the anchor is wrapped. */
  lemma SegmentCounts(m: Math, scene: Scene, a: Anchor, width: real)
    ensures CountOf(SegmentCommands(m, scene, a, width), IsLine) == 1
    ensures CountOf(SegmentCommands(m, scene, a, width), IsCircle) == if a.rad != 0.0 then 1 else 0
  {
    var arc := ArcCommands(m, scene, a, width);
    var head := [LineCmd(OffsetTangent(m, a, width))];
    var tail := [MoveCmd(OffsetStart(m, a, width))];
    CountOfAppend(head + arc, tail, IsLine);
    CountOfAppend(head, arc, IsLine);
    CountOfAppend(head + arc, tail, IsCircle);
    CountOfAppend(head, arc, IsCircle);
    if Abs(a.rad) >= TwoPi {
      var full := if a.rad > 0.0 then [CircleCmd(Arc(a.center, BodyRadius(scene, a.obj) + width / 2.0, 0.0, TwoPi, false))]
                  else [CircleCmd(Arc(a.center, BodyRadius(scene, a.obj) + width / 2.0, TwoPi, 0.0, true))];
      assert arc == full + [MoveCmd(a.start)];
      CountOfAppend(full, [MoveCmd(a.start)], IsLine);
      CountOfAppend(full, [MoveCmd(a.start)], IsCircle);
    }
  }

  /** The render loop draws one line per anchor it visits and one arc per
      wrapped anchor. */
  lemma {:induction false} SegmentsCounts(m: Math, scene: Scene, chain: seq<Anchor>, i: nat, width: real)
    requires i < |chain|
    decreases i
    ensures CountOf(Segments(m, scene, chain, i, width), IsLine) == i
    ensures CountOf(Segments(m, scene, chain, i, width), IsCircle) == WrappedCount(chain, i)
  {
    if i > 0 {
      var head := SegmentCommands(m, scene, chain[i], width);
      var rest := Segments(m, scene, chain, i - 1, width);
      assert Segments(m, scene, chain, i, width) == head + rest;
      SegmentsCounts(m, scene, chain, i - 1, width);
      SegmentCounts(m, scene, chain[i], width);
      CountOfAppend(head, rest, IsLine);
      CountOfAppend(head, rest, IsCircle);
    }
  }

  /** The fixed head and tail of a rendering: the only line is the final one. */
  lemma FrameCounts(width: real, freeEnd: Vec2, rootPos: Vec2)
    ensures CountOf([WidthCmd(width), MoveCmd(freeEnd)], IsLine) == 0
    ensures CountOf([WidthCmd(width), MoveCmd(freeEnd)], IsCircle) == 0
    ensures CountOf([LineCmd(rootPos), StrokeCmd], IsLine) == 1
    ensures CountOf([LineCmd(rootPos), StrokeCmd], IsCircle) == 0
  {
    assert [WidthCmd(width), MoveCmd(freeEnd)][1..] == [MoveCmd(freeEnd)];
    assert [LineCmd(rootPos), StrokeCmd][1..] == [StrokeCmd];
    CountOfSingle(MoveCmd(freeEnd), IsLine);
    CountOfSingle(MoveCmd(freeEnd), IsCircle);
    CountOfSingle(StrokeCmd, IsLine);
    CountOfSingle(StrokeCmd, IsCircle);
  }

  /** A rendered rope has one `lineTo` per anchor, the root's being the final
      line to the rope start. */
  lemma RenderLineCount(m: Math, scene: Scene, chain: seq<Anchor>, freeEnd: Vec2, rootPos: Vec2, width: real)
    requires |chain| > 0
    ensures CountOf(RenderRope(m, scene, chain, freeEnd, rootPos, width), IsLine) == |chain|
  {
    SegmentsCounts(m, scene, chain, |chain| - 1, width);
    FrameCounts(width, freeEnd, rootPos);
    RenderCount(m, scene, chain, freeEnd, rootPos, width, IsLine);
  }

  /** A rendered rope has one `circle` per wrapped non-root anchor. */
  lemma RenderArcCount(m: Math, scene: Scene, chain: seq<Anchor>, freeEnd: Vec2, rootPos: Vec2, width: real)
    requires |chain| > 0
    ensures CountOf(RenderRope(m, scene, chain, freeEnd, rootPos, width), IsCircle) == WrappedCount(chain, |chain| - 1)
  {
    SegmentsCounts(m, scene, chain, |chain| - 1, width);
    FrameCounts(width, freeEnd, rootPos);
    RenderCount(m, scene, chain, freeEnd, rootPos, width, IsCircle);
  }

  /** Counting over a rendering is counting over its head, loop and tail. */
  lemma RenderCount(m: Math, scene: Scene, chain: seq<Anchor>, freeEnd: Vec2, rootPos: Vec2, width: real,
                    p: Command -> bool)
    requires |chain| > 0
    ensures CountOf(RenderRope(m, scene, chain, freeEnd, rootPos, width), p)
            == CountOf([WidthCmd(width), MoveCmd(freeEnd)], p)
               + CountOf(Segments(m, scene, chain, |chain| - 1, width), p)
               + CountOf([LineCmd(rootPos), StrokeCmd], p)
  {
    RenderRopeParts(m, scene, chain, freeEnd, rootPos, width);
    CountOfThree([WidthCmd(width), MoveCmd(freeEnd)], Segments(m, scene, chain, |chain| - 1, width),
                 [LineCmd(rootPos), StrokeCmd], p);
  }

  /** A rendering of a non-empty chain: the fixed head, the render loop, the fixed tail. */
  lemma RenderRopeParts(m: Math, scene: Scene, chain: seq<Anchor>, freeEnd: Vec2, rootPos: Vec2, width: real)
    requires |chain| > 0
    ensures RenderRope(m, scene, chain, freeEnd, rootPos, width)
            == [WidthCmd(width), MoveCmd(freeEnd)] + Segments(m, scene, chain, |chain| - 1, width) + [LineCmd(rootPos), StrokeCmd]
  {
  }

  /** Fed to the builder, an anchor's arc is `|rad| * R` long when partial and
      a whole circumference `2 pi * R` when the wrap reaches a full turn. */
  lemma ArcCommandLength(m: Math, scene: Scene, a: Anchor, width: real)
    ensures var cmds := ArcCommands(m, scene, a, width);
            var radius := BodyRadius(scene, a.obj) + width / 2.0;
            && (|cmds| == 0 <==> a.rad == 0.0)
            && (|cmds| > 0 ==>
                  && cmds[0].CircleCmd?
                  && cmds[0].arc.center == a.center && cmds[0].arc.radius == radius
                  && ArcLength(cmds[0].arc.startAngle, cmds[0].arc.endAngle, radius, cmds[0].arc.clockwise)
                     == (if Abs(a.rad) >= TwoPi then TwoPi * radius else Abs(a.rad) * radius))
  {
  }

  /** Where each arc starts and ends and which way it turns: a partial wrap
      starts at the tangent point's polar angle, sweeps the wrap angle and
      turns clockwise exactly when the angle is negative; a full turn is
      the whole circle counter-clockwise from 0 (positive wrap) or clockwise
      from 2 pi, after which the pen moves to the anchor's start. */
  lemma ArcCommandAngles(m: Math, scene: Scene, a: Anchor, width: real)
    ensures var cmds := ArcCommands(m, scene, a, width);
            && (0.0 < Abs(a.rad) < TwoPi ==>
                  && |cmds| == 1 && cmds[0].CircleCmd?
                  && cmds[0].arc.startAngle == PointAngle(m, a.tangent, a.center)
                  && cmds[0].arc.endAngle == cmds[0].arc.startAngle + a.rad
                  && cmds[0].arc.clockwise == (a.rad < 0.0))
            && (Abs(a.rad) >= TwoPi ==>
                  && |cmds| == 2 && cmds[0].CircleCmd? && cmds[1] == MoveCmd(a.start)
                  && cmds[0].arc.clockwise == (a.rad < 0.0)
                  && cmds[0].arc.startAngle == (if a.rad > 0.0 then 0.0 else TwoPi)
                  && cmds[0].arc.endAngle == (if a.rad > 0.0 then TwoPi else 0.0))
  {
  }

  /** A point at distance `k` from the centre lies at its polar angle on the
      circle of radius `k`. */
  lemma OnCircleAtPointAngle(m: Math, p: Vec2, c: Vec2, k: real)
    requires Lawful(m) && AngleLaws(m)
    requires 0.0 < k && Dist2(p, c) == k * k
    ensures var phi := PointAngle(m, p, c);
            Add(Scale(Vec2(m.cos(phi), m.sin(phi)), k), c) == p
  {
    DistanceOfRadius(m, p, c, k);
    PointAngleDirection(m, p, c);
  }

  /** A partial arc starts on the ray from the peg's centre through the
      anchor's tangent point, so the drawn arc picks up where the straight
      rope left the peg. */
  lemma ArcStartsAtTangent(m: Math, scene: Scene, a: Anchor, width: real)
    requires Lawful(m) && AngleLaws(m)
    requires 0.0 < Abs(a.rad) < TwoPi
    requires 0.0 < BodyRadius(scene, a.obj)
    requires Dist2(a.tangent, a.center) == Sq(BodyRadius(scene, a.obj))
    ensures var arc := ArcCommands(m, scene, a, width)[0].arc;
            Add(Scale(Vec2(m.cos(arc.startAngle), m.sin(arc.startAngle)), BodyRadius(scene, a.obj)), a.center)
            == a.tangent
  {
    ArcCommandAngles(m, scene, a, width);
    OnCircleAtPointAngle(m, a.tangent, a.center, BodyRadius(scene, a.obj));
  }

  // ------------------------------------------------------------ pen targets

  /** The targets of the `lineTo` calls among `cmds`, in order. */
  function LineTargets(cmds: seq<Command>): seq<Vec2> {
    if cmds == [] then []
    else (if cmds[0].LineCmd? then [cmds[0].p] else []) + LineTargets(cmds[1..])
  }

  /** The targets of the `moveTo` calls among `cmds`, in order. */
  function MoveTargets(cmds: seq<Command>): seq<Vec2> {
    if cmds == [] then []
    else (if cmds[0].MoveCmd? then [cmds[0].p] else []) + MoveTargets(cmds[1..])
  }

  lemma {:induction false} LineTargetsAppend(a: seq<Command>, b: seq<Command>)
    ensures LineTargets(a + b) == LineTargets(a) + LineTargets(b)
    decreases |a|
  {
    if a != [] {
      assert (a + b)[0] == a[0];
      assert (a + b)[1..] == a[1..] + b;
      LineTargetsAppend(a[1..], b);
    } else {
      assert a + b == b;
    }
  }

  lemma {:induction false} MoveTargetsAppend(a: seq<Command>, b: seq<Command>)
    ensures MoveTargets(a + b) == MoveTargets(a) + MoveTargets(b)
    decreases |a|
  {
    if a != [] {
      assert (a + b)[0] == a[0];
      assert (a + b)[1..] == a[1..] + b;
      MoveTargetsAppend(a[1..], b);
    } else {
      assert a + b == b;
    }
  }

  lemma LinesCons(seg: seq<Command>, rest: seq<Command>, segLines: seq<Vec2>, restLines: seq<Vec2>)
    requires LineTargets(seg) == segLines && LineTargets(rest) == restLines
    ensures LineTargets(seg + rest) == segLines + restLines
  {
    LineTargetsAppend(seg, rest);
  }

  lemma MovesCons(seg: seq<Command>, rest: seq<Command>, segMoves: seq<Vec2>, restMoves: seq<Vec2>)
    requires MoveTargets(seg) == segMoves && MoveTargets(rest) == restMoves
    ensures MoveTargets(seg + rest) == segMoves + restMoves
  {
    MoveTargetsAppend(seg, rest);
  }

  lemma TargetsAppend(a: seq<Command>, b: seq<Command>)
    ensures LineTargets(a + b) == LineTargets(a) + LineTargets(b)
    ensures MoveTargets(a + b) == MoveTargets(a) + MoveTargets(b)
  {
    LineTargetsAppend(a, b);
    MoveTargetsAppend(a, b);
  }

  lemma TargetsThree(a: seq<Command>, b: seq<Command>, c: seq<Command>)
    ensures LineTargets(a + b + c) == LineTargets(a) + LineTargets(b) + LineTargets(c)
    ensures MoveTargets(a + b + c) == MoveTargets(a) + MoveTargets(b) + MoveTargets(c)
  {
    TargetsAppend(a + b, c);
    TargetsAppend(a, b);
  }

  lemma TargetsOne(c: Command)
    ensures LineTargets([c]) == if c.LineCmd? then [c.p] else []
    ensures MoveTargets([c]) == if c.MoveCmd? then [c.p] else []
  {
    assert [c][1..] == [];
  }

  /** The pen moves an anchor's own arc makes: none, except the move to the
      first contact after a full turn. */
  function ArcMoves(a: Anchor): seq<Vec2> {
    if Abs(a.rad) >= TwoPi then [a.start] else []
  }

  /** An arc draws no line, and moves the pen only to the anchor's first
      contact after a full turn. */
  lemma ArcTargets(m: Math, scene: Scene, a: Anchor, width: real)
    ensures LineTargets(ArcCommands(m, scene, a, width)) == []
    ensures MoveTargets(ArcCommands(m, scene, a, width)) == ArcMoves(a)
  {
    var cmds := ArcCommands(m, scene, a, width);
    ArcCommandAngles(m, scene, a, width);
    if Abs(a.rad) >= TwoPi {
      assert cmds == [cmds[0]] + [cmds[1]];
      TargetsAppend([cmds[0]], [cmds[1]]);
      TargetsOne(cmds[0]);
      TargetsOne(cmds[1]);
    } else if a.rad != 0.0 {
      TargetsOne(cmds[0]);
    }
  }

  /** One segment draws exactly one line, to the offset tangent point, and
      its last pen move is to the offset first contact. */
  lemma SegmentTargets(m: Math, scene: Scene, a: Anchor, width: real)
    ensures LineTargets(SegmentCommands(m, scene, a, width)) == [OffsetTangent(m, a, width)]
    ensures MoveTargets(SegmentCommands(m, scene, a, width)) == ArcMoves(a) + [OffsetStart(m, a, width)]
  {
    var head := [LineCmd(OffsetTangent(m, a, width))];
    var arc := ArcCommands(m, scene, a, width);
    var tail := [MoveCmd(OffsetStart(m, a, width))];
    assert SegmentCommands(m, scene, a, width) == head + arc + tail;
    TargetsThree(head, arc, tail);
    TargetsOne(head[0]);
    TargetsOne(tail[0]);
    ArcTargets(m, scene, a, width);
  }

  /** The lines of anchors `i` down to 1, as a list of points. */
  function LoopLines(m: Math, chain: seq<Anchor>, i: nat, width: real): seq<Vec2>
    requires i < |chain|
    decreases i
  {
    if i == 0 then [] else [OffsetTangent(m, chain[i], width)] + LoopLines(m, chain, i - 1, width)
  }

  /** The loop's `k`-th line goes to the offset tangent point of anchor
      `i - k`: the anchors are visited from `i` down to 1, one line each. */
  lemma {:induction false} LoopLinesAt(m: Math, chain: seq<Anchor>, i: nat, width: real)
    requires i < |chain|
    decreases i
    ensures |LoopLines(m, chain, i, width)| == i
    ensures forall k :: 0 <= k < i ==> LoopLines(m, chain, i, width)[k] == OffsetTangent(m, chain[i - k], width)
  {
    if i > 0 {
      LoopLinesAt(m, chain, i - 1, width);
      var rest := LoopLines(m, chain, i - 1, width);
      forall k | 0 <= k < i
        ensures LoopLines(m, chain, i, width)[k] == OffsetTangent(m, chain[i - k], width)
      {
        if k > 0 {
          assert LoopLines(m, chain, i, width)[k] == rest[k - 1];
        }
      }
    }
  }

  /** The render loop from anchor `i` down draws its lines in the reference order. */
  lemma {:induction false} SegmentsLineTargets(m: Math, scene: Scene, chain: seq<Anchor>, i: nat, width: real)
    requires i < |chain|
    decreases i
    ensures LineTargets(Segments(m, scene, chain, i, width)) == LoopLines(m, chain, i, width)
  {
    if i > 0 {
      SegmentTargets(m, scene, chain[i], width);
      SegmentsLineTargets(m, scene, chain, i - 1, width);
      LinesCons(SegmentCommands(m, scene, chain[i], width), Segments(m, scene, chain, i - 1, width),
                [OffsetTangent(m, chain[i], width)], LoopLines(m, chain, i - 1, width));
    }
  }

  /** The pen moves of anchors `i` down to 1, as a list of points. */
  function LoopMoves(m: Math, chain: seq<Anchor>, i: nat, width: real): seq<Vec2>
    requires i < |chain|
    decreases i
  {
    if i == 0 then [] else ArcMoves(chain[i]) + [OffsetStart(m, chain[i], width)] + LoopMoves(m, chain, i - 1, width)
  }

  lemma {:induction false} SegmentsMoveTargets(m: Math, scene: Scene, chain: seq<Anchor>, i: nat, width: real)
    requires i < |chain|
    decreases i
    ensures MoveTargets(Segments(m, scene, chain, i, width)) == LoopMoves(m, chain, i, width)
  {
    if i > 0 {
      SegmentTargets(m, scene, chain[i], width);
      SegmentsMoveTargets(m, scene, chain, i - 1, width);
      MovesCons(SegmentCommands(m, scene, chain[i], width), Segments(m, scene, chain, i - 1, width),
                ArcMoves(chain[i]) + [OffsetStart(m, chain[i], width)], LoopMoves(m, chain, i - 1, width));
    }
  }

  /** Framing any loop with a rendering's head and tail adds one move to the
      free end in front and one line to the rope start behind. */
  lemma FramedTargets(width: real, freeEnd: Vec2, rootPos: Vec2, loop: seq<Command>)
    ensures LineTargets([WidthCmd(width), MoveCmd(freeEnd)] + loop + [LineCmd(rootPos), StrokeCmd])
            == LineTargets(loop) + [rootPos]
    ensures MoveTargets([WidthCmd(width), MoveCmd(freeEnd)] + loop + [LineCmd(rootPos), StrokeCmd])
            == [freeEnd] + MoveTargets(loop)
  {
    TargetsThree([WidthCmd(width), MoveCmd(freeEnd)], loop, [LineCmd(rootPos), StrokeCmd]);
    FrameTargets(width, freeEnd, rootPos);
  }

  /** Head and tail of a rendering: one move to the free end, one line to the rope start. */
  lemma FrameTargets(width: real, freeEnd: Vec2, rootPos: Vec2)
    ensures LineTargets([WidthCmd(width), MoveCmd(freeEnd)]) == []
    ensures MoveTargets([WidthCmd(width), MoveCmd(freeEnd)]) == [freeEnd]
    ensures LineTargets([LineCmd(rootPos), StrokeCmd]) == [rootPos]
    ensures MoveTargets([LineCmd(rootPos), StrokeCmd]) == []
  {
    assert [WidthCmd(width), MoveCmd(freeEnd)] == [WidthCmd(width)] + [MoveCmd(freeEnd)];
    assert [LineCmd(rootPos), StrokeCmd] == [LineCmd(rootPos)] + [StrokeCmd];
    TargetsAppend([WidthCmd(width)], [MoveCmd(freeEnd)]);
    TargetsAppend([LineCmd(rootPos)], [StrokeCmd]);
    TargetsOne(WidthCmd(width));
    TargetsOne(MoveCmd(freeEnd));
    TargetsOne(LineCmd(rootPos));
    TargetsOne(StrokeCmd);
  }

  /** The lines of a rendering, in order: to the offset tangent point of the
      last anchor, then of each earlier one down to anchor 1, then to the
      rope start. */
  lemma RenderLineTargets(m: Math, scene: Scene, chain: seq<Anchor>, freeEnd: Vec2, rootPos: Vec2, width: real)
    requires |chain| > 0
    ensures LineTargets(RenderRope(m, scene, chain, freeEnd, rootPos, width))
            == LoopLines(m, chain, |chain| - 1, width) + [rootPos]
  {
    RenderRopeParts(m, scene, chain, freeEnd, rootPos, width);
    FramedTargets(width, freeEnd, rootPos, Segments(m, scene, chain, |chain| - 1, width));
    SegmentsLineTargets(m, scene, chain, |chain| - 1, width);
  }

  /** The pen moves of a rendering, in order: to the free end, then for each
      anchor from the last down to anchor 1 its full-turn move (if any) and
      the move to its offset first contact. */
  lemma RenderMoveTargets(m: Math, scene: Scene, chain: seq<Anchor>, freeEnd: Vec2, rootPos: Vec2, width: real)
    requires |chain| > 0
    ensures MoveTargets(RenderRope(m, scene, chain, freeEnd, rootPos, width))
            == [freeEnd] + LoopMoves(m, chain, |chain| - 1, width)
  {
    RenderRopeParts(m, scene, chain, freeEnd, rootPos, width);
    FramedTargets(width, freeEnd, rootPos, Segments(m, scene, chain, |chain| - 1, width));
    SegmentsMoveTargets(m, scene, chain, |chain| - 1, width);
  }

  /** Without full turns, each anchor from `i` down makes exactly one move,
      to its offset first contact. */
  lemma {:induction false} LoopMovesPartial(m: Math, chain: seq<Anchor>, i: nat, width: real)
    requires i < |chain|
    requires forall j :: 1 <= j <= i ==> Abs(chain[j].rad) < TwoPi
    decreases i
    ensures |LoopMoves(m, chain, i, width)| == i
    ensures forall k :: 0 <= k < i ==> LoopMoves(m, chain, i, width)[k] == OffsetStart(m, chain[i - k], width)
  {
    if i > 0 {
      assert ArcMoves(chain[i]) == [];
      LoopMovesPartial(m, chain, i - 1, width);
    }
  }

  /** A segment's straight part ends exactly where its drawn arc starts:
      for a partial wrap with the tangent point on the peg, the offset
      tangent point is the arc's first point on the circle of radius
      peg radius + W/2. */
  lemma SegmentMeetsArc(m: Math, scene: Scene, a: Anchor, width: real)
    requires Lawful(m) && AngleLaws(m)
    requires 0.0 < Abs(a.rad) < TwoPi
    requires NormalizeEpsilon < BodyRadius(scene, a.obj)
    requires Dist2(a.tangent, a.center) == Sq(BodyRadius(scene, a.obj))
    ensures var arc := ArcCommands(m, scene, a, width)[0].arc;
            OffsetTangent(m, a, width)
            == Add(Scale(Vec2(m.cos(arc.startAngle), m.sin(arc.startAngle)), arc.radius), a.center)
  {
    var k := BodyRadius(scene, a.obj);
    var v := Sub(a.tangent, a.center);
    var arc := ArcCommands(m, scene, a, width)[0].arc;
    var u := Vec2(m.cos(arc.startAngle), m.sin(arc.startAngle));
    ArcCommandLength(m, scene, a, width);
    DistanceOfRadius(m, a.tangent, a.center, k);
    NormalizeIsUnit(m, v);
    ArcStartsAtTangent(m, scene, a, width);
    assert Scale(u, k) == v;
    ScaleCancel(u, Normalize(m, v), k);
    ScaleSum(u, k, width / 2.0);
  }

  /** The drawing never depends on the root anchor. */
  lemma {:induction false} SegmentsIgnoreRoot(m: Math, scene: Scene, chain: seq<Anchor>, other: seq<Anchor>, i: nat, width: real)
    requires i < |chain| == |other|
    requires chain[1..] == other[1..]
    decreases i
    ensures Segments(m, scene, chain, i, width) == Segments(m, scene, other, i, width)
  {
    if i > 0 {
      assert chain[i] == chain[1..][i - 1] == other[1..][i - 1] == other[i];
      SegmentsIgnoreRoot(m, scene, chain, other, i - 1, width);
    }
  }

  lemma RenderIgnoresRoot(m: Math, scene: Scene, chain: seq<Anchor>, root: Anchor, freeEnd: Vec2, rootPos: Vec2, width: real)
    requires |chain| > 0
    ensures RenderRope(m, scene, chain, freeEnd, rootPos, width)
            == RenderRope(m, scene, chain[0 := root], freeEnd, rootPos, width)
  {
    assert chain[1..] == chain[0 := root][1..];
    SegmentsIgnoreRoot(m, scene, chain, chain[0 := root], |chain| - 1, width);
  }

  // ------------------------------------------------------------------ frame

  /** What one frame leaves behind: the chain, the builder and the published mesh. */
  datatype Frame = Frame(chain: seq<Anchor>, builder: Builder, mesh: Mesh)

  /** `Update` without input handling and physics: clear the builder, handle
      the hits, optimize, render the chain and publish the mesh. */
  function Tick(m: Math, scene: Scene, chain: seq<Anchor>, freeEnd: Vec2, hits: seq<Hit>,
                rootPos: Vec2, width: real, b: Builder): (f: Frame)
    requires TangentsDefined(m, scene, chain, freeEnd, hits)
    ensures f.chain == ChainStep(m, scene, chain, freeEnd, hits)
    ensures WellFormedMesh(f.mesh) && Valid(f.builder)
    ensures f.mesh == Stroke(f.builder)
  {
    var chain' := ChainStep(m, scene, chain, freeEnd, hits);
    var cmds := RenderRope(m, scene, chain', freeEnd, rootPos, width);
    var drawn := Replay(m, Clear(b), cmds);
    Frame(chain', drawn, Stroke(drawn))
  }

  /** The builder after the width and the pen have been set for a
      straight rope from `(10, 0)`. */
  function StraightPen(): Builder {
    Builder([], [], [], 0, 0.0, Vec2(10.0, 0.0), true, 1.0)
  }

  /** The one line of a straight rope: from `(10, 0)` to the origin, width 1.
      Only the square root of 100 matters. */
  lemma StraightLine(m: Math)
    requires m.sqrt(100.0) == 10.0
    ensures var r := LineTo(m, StraightPen(), Origin);
            && r.verts == [Vec2(10.0, 0.5), Vec2(10.0, -0.5), Vec2(0.0, 0.5), Vec2(0.0, -0.5)]
            && r.uvs == [TexCoord(0.0, 0.0), TexCoord(0.0, 1.0), TexCoord(2.0, 0.0), TexCoord(2.0, 1.0)]
            && r.tris == [3, 2, 0, 3, 0, 1]
  {
    StraightEdges(m);
    var r := LineTo(m, StraightPen(), Origin);
    assert r.verts == r.verts[0..];
    assert r.uvs == r.uvs[0..];
  }

  /** The ribbon edges of the straight rope's line lie half a unit either side. */
  lemma StraightEdges(m: Math)
    requires m.sqrt(100.0) == 10.0
    ensures Magnitude(m, Vec2(-10.0, 0.0)) == 10.0
    ensures EdgeOffsets(m, Vec2(-10.0, 0.0), 1.0) == (Vec2(0.0, -0.5), Vec2(0.0, 0.5))
  {
    assert Dot(Vec2(0.0, -10.0), Vec2(0.0, -10.0)) == 100.0;
    assert Dot(Vec2(0.0, 10.0), Vec2(0.0, 10.0)) == 100.0;
    assert Dot(Vec2(-10.0, 0.0), Vec2(-10.0, 0.0)) == 100.0;
  }

  /** A straight rope's frame replays width, pen move, one line and stroke. */
  lemma StraightReplay(m: Math, scene: Scene, rootObj: ObjId, b: Builder)
    ensures var chain := StartChain(rootObj, Origin);
            var cmds := RenderRope(m, scene, chain, Vec2(10.0, 0.0), Origin, 1.0);
            Replay(m, Clear(b), cmds) == LineTo(m, StraightPen(), Origin)
  {
    var cmds := RenderRope(m, scene, StartChain(rootObj, Origin), Vec2(10.0, 0.0), Origin, 1.0);
    assert cmds == [WidthCmd(1.0), MoveCmd(Vec2(10.0, 0.0)), LineCmd(Origin), StrokeCmd];
    assert Replay(m, Clear(b), cmds) == Replay(m, Clear(b).(width := 1.0), cmds[1..]);
    assert Replay(m, Clear(b).(width := 1.0), cmds[1..]) == Replay(m, StraightPen(), cmds[2..]);
    assert Replay(m, StraightPen(), cmds[2..]) == Replay(m, LineTo(m, StraightPen(), Origin), cmds[3..]);
    var drawn := LineTo(m, StraightPen(), Origin);
    assert cmds[3..] == [StrokeCmd] && cmds[3..][1..] == [];
    assert Apply(m, drawn, StrokeCmd) == drawn;
    assert Replay(m, drawn, cmds[3..]) == Replay(m, drawn, []) == drawn;
  }

  /** A straight rope: root at the origin, free end at `(10, 0)`, width 1,
      nothing in between. The chain is left alone, and the mesh is one quad
      drawn from the free end back to the root with the texture repeated
      twice along its length of 10. */
  lemma StraightRope(m: Math, scene: Scene, rootObj: ObjId, b: Builder)
    requires Lawful(m)
    ensures var chain := StartChain(rootObj, Origin);
            var f := Tick(m, scene, chain, Vec2(10.0, 0.0), [], Origin, 1.0, b);
            && f.chain == chain
            && f.mesh.vertices == [Vec2(10.0, 0.5), Vec2(10.0, -0.5), Vec2(0.0, 0.5), Vec2(0.0, -0.5)]
            && f.mesh.uv == [TexCoord(0.0, 0.0), TexCoord(0.0, 1.0), TexCoord(2.0, 0.0), TexCoord(2.0, 1.0)]
            && f.mesh.triangles == [3, 2, 0, 3, 0, 1]
  {
    var chain := StartChain(rootObj, Origin);
    assert ChainStep(m, scene, chain, Vec2(10.0, 0.0), []) == chain;
    StraightReplay(m, scene, rootObj, b);
    SqrtOfSquare(m, 10.0);
    StraightLine(m);
  }
}
